=== FILE: README.md ===
# DrawBattle room logic in Dafny

DrawBattle is a two-team Pictionary game. A Node.js server keeps every room
in memory and changes it in response to REST calls and Socket.IO events. A
browser client shows the canvas, the clock and the word to whoever draws.
This project models the room state machine of the server and the pure
parts of the client. Each model is an immutable value with pure transition
functions, and the bookkeeping the game relies on is proved about them.

Modules, one per concern:

- `Wrappers`: `Option` and `Result`.
- `Text`: JavaScript `trim` (the full ECMAScript WhiteSpace and
  LineTerminator set) and `toLowerCase` (ASCII letters only).
- `Words`: turning the word provider's reply into a word pool
  (`split(/\r?\n/)`, trim, drop blanks).
- `Strokes`: points and lines of the canvas.
- `Room`: the room record, the per-room invariant, and the join,
  switch-team, set-time, draw and disconnect transitions.
- `Round`: drawing a word from the pool, starting a round or the game, and
  judging guesses.
- `Timer`: the countdown, as the sequence of values it sends.
- `Gateway`: the room registry, the REST entry points and the socket
  handlers. Each handler is one atomic step that also lists the messages
  it sends.
- `Clock`: the client's `formatTime`, with a parser that reads the clock back.
- `Canvas`: the client's two `drawing` listeners and the drawer's pen.
- `Drawer`: the client's derivation of who draws and which word it sees.

The room invariant `Room.Valid` has four parts:

- player names are unique;
- each team list holds each name at most once, and only players whose
  `team` field names that list;
- every player sits in its own list;
- the score keys are exactly the player names.

Join, switch-team, set-time, draw, start-game and disconnect keep it. A
guess keeps it when the guesser's name belongs to a player of the room.

Behaviours of the code that the model states and proves:

- The guesser's name comes from the guess message and is not checked. A
  correct guess under a name that is not a player of the room creates a
  score for that name, so the scores stop tracking the players
  (`Round.GuessByStrangerAddsScore`).
- The room code is not checked for collisions. Creating a room under a
  live code replaces that room (`Gateway.CreateGameCollision`).
- The client registers the `drawing` listener twice, and both run. So every
  non-empty stroke is stored twice on the client, once on the server
  (`Canvas.ReplayDoubles`).
- The server compares `trim` then `toLowerCase` of the guess. Under
  ASCII-only lowering this is the same as lowering first
  (`Round.MatchesEitherOrder`).
- A round of 0 minutes sends the tick -1 and then ends. The clock shows
  that tick as "-1:-1" (`Clock.FormatTimeMinusOne`). More generally, a
  round of 0 minutes or fewer sends the single value minutes*60-1 and ends
  (`Timer.Ticks`), because the lobby input's `min="1"` is not enforced.

## Model

| member | source | states |
|---|---|---|
| Text.Trim | server/index.js:174 | the result has no space at either end and is no longer than the input |
| Text.TrimIgnoresPadding | server/index.js:174 | whitespace before and after a trimmed string is removed, and nothing else is |
| Text.LowerTrimCommute | server/index.js:174 | lowering and trimming commute |
| Text.Lower | server/index.js:174 | the result has the input's length and no ASCII capital; each capital becomes its own lower-case letter and every other character is unchanged |
| Text.SameUpToCaseLower | server/index.js:174 | two strings lower to the same string exactly when they agree position by position up to ASCII case |
| Text.LowerIdempotent | server/index.js:174 | lowering twice is lowering once |
| Words.SplitLines | server/index.js:41 | splitting on line breaks yields at least one piece, and no piece holds a line break |
| Words.CleanWords | server/index.js:41 | trimming and dropping blank pieces yields only non-blank trimmed words, never more than there were pieces |
| Words.ParseWords | server/index.js:41 | every word parsed from a reply is non-empty and has no surrounding whitespace |
| Words.CleanWordsFromPieces | server/index.js:41 | every parsed word is the trim of one line of the reply |
| Words.CleanWordsKeeps | server/index.js:41 | every line whose trim is not blank is kept, as its trim |
| Words.CleanWordsOne | server/index.js:41 | one line yields its trim, or nothing when it is blank |
| Words.CleanWordsAppend | server/index.js:41 | cleaning distributes over concatenation, so the words keep the order of their lines |
| Words.ParseJoinLines | server/index.js:26-41 | usable words written one per line, as the provider is asked to reply, parse back to the same list in the same order |
| Room.FindName | server/index.js:86 | the index of the first entry with that name, or the length exactly when the name is absent |
| Room.Without | server/index.js:191-193 | the filter is never longer than the list and keeps no entry with that name |
| Room.WithoutMembers | server/index.js:191-193 | the name filter keeps exactly the entries with another name |
| Room.WithoutAppend | server/index.js:191-193 | the name filter distributes over concatenation, so it keeps the relative order |
| Room.ExactlyOneTeam | server/index.js:87-89 | in a consistent room a player is in its own team list, not in the other, and is the only entry with its name |
| Room.Join | server/index.js:86-91 | a taken name is refused; otherwise one team-A player is appended to the players and to team A, with score 0, and team B and all else are unchanged |
| Room.JoinPreservesValid | server/index.js:86-90 | a successful join keeps the room invariant |
| Room.SwitchTeam | server/index.js:133-134 | an unknown name changes nothing; only the players and team lists can change |
| Room.SwitchTeamMoves | server/index.js:133-137 | the player's entry flips team in place, it leaves its old list and is appended to the end of the other |
| Room.SwitchTeamPreservesValid | server/index.js:133-137 | switch-team keeps every player in exactly the list its team names, and keeps the scores in step |
| Room.SetTime | server/index.js:145 | the round length becomes the given value and nothing else changes |
| Room.Draw | server/index.js:163-166 | the stroke is appended after the earlier strokes, and nothing else changes |
| Room.Disconnect | server/index.js:191-194 | the name leaves the players and both team lists and loses its score key; the other entries and scores and all other fields stay |
| Room.DisconnectKeepsOrder | server/index.js:191-193 | the remaining players keep their relative order in every list |
| Room.DisconnectPreservesValid | server/index.js:191-194 | disconnect keeps the room invariant |
| Room.DisconnectAbsentIsNoOp | server/index.js:191-194 | disconnecting a name nobody uses leaves a consistent room unchanged |
| Room.JoinThenDisconnect | server/index.js:186-196 | disconnecting right after a successful join restores the room exactly |
| Round.Pop | server/index.js:98 | popping yields the last entry and leaves the entries before it; an empty list yields nothing |
| Round.DrawWord | server/index.js:94-99 | the pool is refilled from the reply exactly when it holds fewer than 2 words; the word drawn is the last of the pool and the rest is what remains |
| Round.DrawWordNoRefill | server/index.js:95-98 | without a refill the drawn word is the pool's last and the pool shrinks by exactly one |
| Round.DrawWordYieldsWord | server/index.js:94-99 | a word pool of usable words yields a usable word and stays usable |
| Round.StartRound | server/index.js:101-105 | the new round has the drawn word (or none), an empty canvas and is unguessed; roster, scores and settings stay |
| Round.StartGame | server/index.js:153-154 | starting the game marks the room started, and is otherwise a new round |
| Round.StartRoundWord | server/index.js:101-105 | a round's word is empty or a usable word |
| Round.StartRoundPreservesValid | server/index.js:149-158 | starting a round or the game keeps the room invariant |
| Round.Award | server/index.js:175-176 | the guesser's score goes up by 10 from its value or from 0, other scores stay, and the round is marked guessed |
| Round.Guess | server/index.js:170-184 | a guess is ignored exactly when there is no word or the round is guessed; it is correct exactly when it matches; anything but a correct guess leaves the room unchanged |
| Round.CorrectGuessEffect | server/index.js:174-179 | a correct guess adds exactly 10 to the guesser's score, changes no other score or list, and leaves an unguessed round with an empty canvas |
| Round.GuessedRoundIgnoresGuesses | server/index.js:173-176 | once a correct guess is awarded, every further guess in that round is ignored |
| Round.MatchesEitherOrder | server/index.js:174 | a guess matches exactly when its lowered, trimmed form equals the lowered word |
| Round.Matches | server/index.js:174 | a matching guess, once trimmed, is exactly as long as the word |
| Round.MatchesIgnoresCase | server/index.js:174 | replacing the guess or the word by a string equal to it up to ASCII case does not change whether they match |
| Round.MatchesSameUpToCase | server/index.js:174 | a guess without surrounding whitespace matches exactly the words it equals up to ASCII case |
| Round.MatchesIgnoresPadding | server/index.js:174 | a guess padded with whitespace matches exactly when its unpadded form equals the word up to ASCII case |
| Round.WordItselfMatches | server/index.js:174 | the word, spelled in any mix of cases and padded with any whitespace, is a correct guess |
| Round.CatMatchesCat | server/index.js:174 | the guess "cat" matches the word "Cat" |
| Round.PaddedCapitalsMatch | server/index.js:174 | the guess " CAT " matches the word "cat" |
| Round.ScoreOf | server/index.js:175 | a name's recorded score, or 0 when it has none |
| Round.GuessPreservesValid | server/index.js:174-178 | a guess under a player's name keeps the room invariant |
| Round.GuessByStrangerAddsScore | server/index.js:170-175 | a correct guess under a name that is not a player breaks the scores-track-players invariant |
| Timer.Ticks | server/index.js:108-116 | the countdown sends start-1 first, then values that fall by one and stay positive, and stops at the first value at most 0, which is 0 when start >= 1 |
| Timer.TicksCountDown | server/index.js:108-116 | a countdown from start >= 1 sends exactly start-1, start-2, ..., 0 |
| Gateway.NewGame | server/index.js:66-77 | a new room has the given code and topic, no players, teams or scores, 5 minutes, no word, strokes or guess, is not started, is consistent, and its pool is the parsed reply, which holds only usable words |
| Gateway.SnapshotOf | server/index.js:44-55 | an update carries the room's code, players, team lists, started flag, time, scores, word and topic, each as stored |
| Gateway.SnapshotHidesRoundState | server/index.js:44-55 | an update does not depend on the word pool, the strokes or the guessed flag |
| Gateway.CreateGame | server/index.js:62-79 | the room is stored under its code with the default topic when none is given; every other room is untouched |
| Gateway.CreateGameCollision | server/index.js:64-66 | creating a room under a live code discards that room's players |
| Gateway.JoinGame | server/index.js:82-92 | an unknown code is refused with 404 and a taken name with 400, both leaving the registry unchanged; otherwise the join is applied to that room |
| Gateway.RoomOf | server/index.js:129-131 | a socket event reaches a room exactly when the socket has joined under a code that is live, and then it is that code |
| Gateway.OnJoinGame | server/index.js:121-127 | a live code attaches the socket to the room and sends the room's snapshot; an unknown code does nothing |
| Gateway.OnSwitchTeam | server/index.js:129-139 | without a live room or a known player nothing happens; otherwise the room is replaced by its switch-team result, every other room stays, and the stored room is broadcast |
| Gateway.OnSetTime | server/index.js:141-147 | without a live room nothing happens; otherwise the room is replaced by its set-time result, every other room stays, and the stored room is broadcast |
| Gateway.OnStartGame | server/index.js:149-158 | without a live room nothing happens; otherwise the room is replaced by its start-game result, marked started, every other room stays, and the stored room is broadcast, followed by game-started |
| Gateway.OnDraw | server/index.js:160-168 | for a live room the room is replaced by its draw result, every other room stays, and the stroke is relayed as sent; an unknown room does nothing |
| Gateway.GuessEmits | server/index.js:173-183 | an ignored guess sends nothing, a wrong one only "Incorrect!" to the guesser, a right one "Correct!", the new round's update and a canvas clear, in that order, all to the room |
| Gateway.IncorrectGuessIsPrivate | server/index.js:181-183 | an incorrect guess changes nothing and is answered to the guesser alone |
| Gateway.OnGuess | server/index.js:170-184 | an unknown room, a room without a word or an already guessed round leaves the registry unchanged and sends nothing; otherwise the room is replaced by the guess result |
| Gateway.CorrectGuessIsBroadcast | server/index.js:174-180 | a correct guess is announced to the room, then the new round's state and a canvas clear, with 10 points added |
| Gateway.OnDisconnect | server/index.js:186-196 | a socket without a live room, code or name does nothing; otherwise the room is replaced by its disconnect result, every other room stays, and the stored room is broadcast |
| Gateway.TimerEmits | server/index.js:107-118 | one tick message per countdown value, in order, then the room's update, then game-ended, all to the room; game-ended is sent exactly once, last |
| Gateway.RestPreservesAllValid | server/index.js:62-92 | creating and joining rooms keep every room consistent |
| Gateway.LobbyPreservesAllValid | server/index.js:129-196 | switch-team, set-time and disconnect keep every room consistent |
| Gateway.PlayPreservesAllValid | server/index.js:149-184 | start-game, draw and a guess under a player's name keep every room consistent |
| Clock.JsRem | client/src/app.js:271 | JavaScript's remainder is smaller than the divisor in size, takes the sign of the dividend, and is what remains after the quotient truncated toward zero |
| Clock.FloorDiv | client/src/app.js:270 | the floor of the quotient: quotient times divisor is at most the dividend and within one divisor of it |
| Clock.IntToString | client/src/app.js:270-271 | a non-negative number becomes a string of digits, a negative one a minus sign followed by digits |
| Clock.PadStart2 | client/src/app.js:270-271 | the result has width two, or the string's own width when longer; a string of two or more characters is kept, and digits stay digits |
| Clock.PadStart2Zeros | client/src/app.js:270-271 | padding puts only zeros in front of the string, which ends the result |
| Clock.Field | client/src/app.js:270-271 | a non-negative field is at least two digits, and exactly two below 100 |
| Clock.FormatTime | client/src/app.js:269-273 | a non-negative time is shown as digits, a colon, and exactly two digits |
| Clock.NatToStringValue | client/src/app.js:270-271 | the decimal numeral of a number reads back as that number |
| Clock.PadStart2Value | client/src/app.js:270-271 | zero-padding to two characters keeps the value of a numeral |
| Clock.FormatTimeShape | client/src/app.js:269-273 | for 0 <= s < 6000 the clock is the five characters MM:SS, with MM = s div 60 and SS = s mod 60, each zero-padded |
| Clock.FormatTimeRoundTrip | client/src/app.js:269-273 | for every non-negative time, the clock reads back as the time, by a reader that takes minutes times 60 plus seconds and refuses a seconds field of 60 or more |
| Clock.FormatTimeMinusOne | client/src/app.js:269-273 | the tick -1 is shown as "-1:-1" |
| Canvas.PushHandler | client/src/app.js:225-233 | the first listener clears on an empty line and otherwise appends the line after the earlier strokes |
| Canvas.SpreadHandler | client/src/app.js:246-249 | the second listener clears on an empty line and otherwise appends the line after the earlier strokes |
| Canvas.Deliver | client/src/app.js:225-249 | with both listeners, an empty line clears and a non-empty line is appended twice after the earlier strokes |
| Canvas.ReplayDoubles | client/src/app.js:225-249 | without clears, a client holds the earlier strokes followed by every received stroke twice in a row |
| Canvas.ClearForgetsHistory | client/src/app.js:227-228 | after a clear only the strokes received later remain, whatever came before |
| Canvas.MouseDown | client/src/app.js:161-164 | pressing starts a drag whose stroke is only the pressed point |
| Canvas.MouseMove | client/src/app.js:165-167 | during a drag a move appends its point after the stroke so far; otherwise it changes nothing |
| Canvas.MouseLeave | client/src/app.js:180 | leaving the canvas ends the drag and keeps the points gathered so far |
| Canvas.MouseUp | client/src/app.js:173-179 | releasing sends the stroke exactly when it has more than one point, and resets the pen |
| Canvas.MoveThroughDrawing | client/src/app.js:165-167 | while drawing, moving through points appends them to the stroke in order |
| Canvas.DragSendsStroke | client/src/app.js:161-179 | press, moves and release send the pressed point followed by the moves, and nothing when there was no move |
| Canvas.MoveThroughIdle | client/src/app.js:165-166 | when no drag is in progress, any number of moves leave the pen unchanged |
| Canvas.LeaveThenRelease | client/src/app.js:161-180 | after a drag leaves the canvas, later moves are ignored and a release still sends the pressed point followed by the moves made before leaving |
| Canvas.SentStrokeIsAppended | client/src/app.js:173-179 | a stroke the pen sends is never the clear signal, so receivers append it |
| Drawer.ShownWord | client/src/app.js:243 | the word is shown to the drawer and is empty for everybody else |
| Drawer.IsDrawer | client/src/app.js:241-242 | only a player of the snapshot can be a drawer |
| Drawer.DrawerIsTeamHead | client/src/app.js:241-242 | in a consistent room a player draws exactly when it is the first entry of a team list |
| Drawer.OneDrawerPerTeam | client/src/app.js:241-242 | two drawers on the same team are the same player |
| Drawer.DrawerSuccession | client/src/app.js:241-242 | when a team's first player disconnects, the next player of that list becomes its drawer |
| Drawer.WordOnlyForDrawer | client/src/app.js:241-243 | the word is shown exactly to the heads of the team lists |

## Left out

- Transport: the Express server, Socket.IO rooms and fan-out, and `emitGameUpdate` itself. Sent messages are modelled as a list of `Emit` values.
- The word provider: the OpenRouter call in `getAIWords` is an external service. Its reply text is a parameter, and only the parsing is modelled. The prompt and the `count` argument are not modelled.
- Word-provider failure: `getAIWords` (server/index.js:25-42) has no error handling, so a failed or malformed reply rejects the handler that awaited it, and the model assumes every reply arrives. A failed `create-game` stores no room. A failed refill after a correct guess (l.175-178) leaves the room guessed with the old word, so every later guess is ignored until the next `start-game`. A failed refill in `start-game` (l.153-154) leaves the room started with no new round, no update, no game-started and no timer.
- Room codes: `Math.random` code generation is randomness, so the code is a parameter of `Gateway.CreateGame`.
- Timing: `setInterval` and the `await` points are not modelled. Each handler is one atomic step, and the countdown is the sequence of its values. A correct guess is modelled as the award followed by the new round; `Round.GuessedRoundIgnoresGuesses` states what a guess does between the two.
- Aliasing: a player object is shared between `players` and a team list in the code; the model uses values and updates both copies. The two agree while the room invariant holds.
- Rendering: DOM and canvas drawing (`render*`, `drawLine`, `getCanvasPos`, `updateFeedback`) is UI. Points are opaque pairs of reals.
- Redraws are not modelled. Each `drawing` listener calls `setupCanvas` (client/src/app.js:232, 248). The second `update` listener (l.244), `game-started` (l.223) and `game-ended` (l.250) call `renderGame`, which replaces the page (l.120) and calls `setupCanvas` (l.150). `setupCanvas` starts a fresh pen (l.158-159). So a stroke, a player joining, a team switch, a `set-time` or a correct guess that arrives during a drag throws the stroke away, and the release then sends nothing. `Canvas.DragSendsStroke` and `Canvas.LeaveThenRelease` hold only for a drag that no such message interrupts.
- The first `update` listener of the client only stores the snapshot for rendering and is not modelled.
- client/src/api.js holds fetch wrappers without logic and is not part of this model.
- Undefined fields: `drawingData` and `guessed` are missing on a new room. They are modelled as `[]` and `false`, which every reader in the code treats alike.
- Round.StartRound: when the pool is empty the code stores `undefined` as the word, and the model stores `""`. The server's guess guard treats the two alike. The client does not: an `update` drops the undefined field, so the drawer's page (client/src/app.js:243 and 148) shows "Your word: undefined" where the model's value shows an empty word.
- Text.Lower: maps only the ASCII capitals, because full Unicode case mapping is not modelled; `Round.MatchesEitherOrder` relies on lowering keeping whitespace.
- Round.Matches: compares with ASCII-only lowering, for the same reason.
- Gateway.OnSetTime: the time is an integer number of minutes. The code stores whatever the client sends, including fractions and strings, which the countdown then multiplies by 60.
- Clock.FormatTimeRoundTrip: covers non-negative integer times, as exact unbounded integers. The code's numbers are doubles. Below 2^53 seconds the code's clock reads back exactly. From about 6.76e16 seconds, `Math.floor(seconds / 60)` can round up, because the double quotient is rounded before the floor: for seconds = 60·2^50 + 56 the quotient 2^50 + 0.93… becomes 2^50 + 1, the clock shows "1125899906842625:56", and it reads back as seconds + 60. A second, later failure is that `toString` switches to exponent form from 1e21 on, so from 6e22 seconds the minutes field is "1e+21". Negative times are not covered. The lobby input's `min="1"` (client/src/app.js:101) is not enforced either, so a round of 0 minutes or fewer sends the single tick minutes*60-1. That tick is -1 only for a 0-minute round, shown as "-1:-1" (`Clock.FormatTimeMinusOne`); a -5-minute round sends -301, shown as "-6:-1".
- Clock.IntToString: writes every integer in plain digits. The code's `toString` on a double writes exponent form ("1e+21") from 1e21 in magnitude on.
- Clock.FloorDiv: is the exact floor. The code's `Math.floor(a / b)` floors the rounded double quotient, which from about 6.76e16 seconds can be one more than the exact floor, as for 60·2^50 + 56 under `Clock.FormatTimeRoundTrip`.
- Clock.FormatTime: matches the code only where both of its parts do: it shows the exact minutes in plain digits, where the code's minutes field can be one too high from about 6.76e16 seconds and is in exponent form from 6e22 seconds. Such values can reach the clock because `set-time` is not bounded.
- Timer.Ticks: counts with unbounded integers, so every countdown ends. The code counts with doubles. Above 2^53, `time--` can leave the value unchanged (6e16 - 1 is 6e16), and then the countdown never stops. A start that is NaN, from a non-numeric `set-time`, never stops either, because `NaN <= 0` is false. The lobby input's `max="60"` (client/src/app.js:101) is not enforced: its value is sent as given (l.110) and stored as given.
- Timer.TicksCountDown: the exact count-down to 0 holds in the code only for a start below 2^53, for the same reason.
- Gateway.TimerEmits: models one countdown on its own. The code keeps a single timer slot per room (`game.timer`, server/index.js:109). Every `start-game` overwrites the slot without clearing the previous interval, and a countdown stops by clearing the slot (l.113), which holds the latest interval rather than its own. A second `start-game` can happen, because a player who joins after the start is shown the lobby and its Start button. Then the first countdown clears the second at its zero and keeps ticking -1, -2, …, sending `update` and `game-ended` every second. "game-ended is sent exactly once, last" holds per countdown, not for the room.
- Room.Join: scores are a Dafny map, while the code keeps them in a plain JavaScript object. Keys the object inherits are not modelled. For the name "__proto__", `scores[name] = 0` (server/index.js:90) runs the inherited setter, which ignores a number, so the code creates no score key and the scores stop tracking the players. The model creates the key.
- Round.Award: for the guesser "__proto__" the code reads the inherited prototype object, computes the string "[object Object]10" and stores nothing. The model adds 10 to a key. Inherited keys are not modelled, as for `Room.Join`.
- Gateway.JoinGame: the registry is a Dafny map, while the code keeps rooms in a plain object. For a code naming an inherited property ("toString", "constructor", "__proto__"), `games[code]` finds a value. The code then throws at `game.players.find` (server/index.js:86) and answers HTTP 500, where the model answers 404.
- Gateway.OnJoinGame: for the same inherited codes the code attaches the socket and sends an `update` whose fields are all undefined, where the model does nothing. Afterwards `set-time` and `draw` under "__proto__" write to the shared object prototype. None of this is modelled.
- Payload checks: a `draw` message without a line, or a `guess` without text, throws in the code. The model takes them as given.
- The registry invariant does not hold across a correct guess under a stranger's name (`Round.GuessByStrangerAddsScore`). So `Gateway.PlayPreservesAllValid` assumes the guesser is a player.
- Room codes are not unique in the code, so no room-code uniqueness is stated. `Gateway.CreateGameCollision` shows the overwrite.

=== FILE: canvas.dfy ===
/**
 * The client's canvas bookkeeping: the two `drawing` listeners that keep
 * the local list of strokes, and the drawer's pen, which sends a stroke
 * when the mouse button is released.
 */
module Canvas {
  import opened Wrappers
  import opened Strokes

  /** The first `drawing` listener: an empty line clears, any other is pushed. */
  function PushHandler(data: seq<Line>, line: Line): (r: seq<Line>)
    ensures |line| == 0 ==> r == []
    ensures |line| > 0 ==> |r| == |data| + 1 && r[..|data|] == data && r[|data|] == line
  {
    if |line| == 0 then [] else data + [line]
  }

  /** The second `drawing` listener: `line.length === 0 ? [] : [...drawingData, line]`. */
  function SpreadHandler(data: seq<Line>, line: Line): (r: seq<Line>)
    ensures |line| == 0 ==> r == []
    ensures |line| > 0 ==> |r| == |data| + 1 && r[..|data|] == data && r[|data|] == line
  {
    if |line| == 0 then [] else data + [line]
  }

  /**
   * One `drawing` message as a client handles it: both listeners run, in the
   * order they were registered, so a non-empty line is appended twice.
   */
  function Deliver(data: seq<Line>, line: Line): (r: seq<Line>)
    ensures |line| == 0 ==> r == []
    ensures |line| > 0 ==> |r| == |data| + 2 && r[..|data|] == data && r[|data|] == line && r[|data| + 1] == line
  {
    SpreadHandler(PushHandler(data, line), line)
  }

  /** The strokes a client holds after a series of `drawing` messages. */
  function Replay(data: seq<Line>, lines: seq<Line>): seq<Line>
    decreases |lines|
  {
    if |lines| == 0 then data else Replay(Deliver(data, lines[0]), lines[1..])
  }

  /** Every line of the series listed twice in a row. */
  function Doubled(lines: seq<Line>): (r: seq<Line>)
    ensures |r| == 2 * |lines|
  {
    if |lines| == 0 then [] else [lines[0], lines[0]] + Doubled(lines[1..])
  }

  /** No line of the series is the empty clear signal. */
  predicate NoClears(lines: seq<Line>) {
    forall l :: l in lines ==> |l| > 0
  }

  /**
   * Without a clear, a client ends up with every stroke twice, while the
   * server's room holds each stroke once.
   */
  lemma {:induction false} ReplayDoubles(data: seq<Line>, lines: seq<Line>)
    requires NoClears(lines)
    ensures Replay(data, lines) == data + Doubled(lines)
    decreases |lines|
  {
    if |lines| > 0 {
      var l := lines[0];
      assert l in lines;
      var d := Deliver(data, l);
      assert d == data + [l, l];
      assert NoClears(lines[1..]) by {
        forall x | x in lines[1..] ensures |x| > 0 {
          assert x in lines;
        }
      }
      ReplayDoubles(d, lines[1..]);
      assert Doubled(lines) == [l, l] + Doubled(lines[1..]);
      assert data + [l, l] + Doubled(lines[1..]) == data + Doubled(lines);
    }
  }

  lemma {:induction false} ReplayAppend(data: seq<Line>, xs: seq<Line>, ys: seq<Line>)
    ensures Replay(data, xs + ys) == Replay(Replay(data, xs), ys)
    decreases |xs|
  {
    if |xs| == 0 {
      assert xs + ys == ys;
    } else {
      assert (xs + ys)[1..] == xs[1..] + ys;
      ReplayAppend(Deliver(data, xs[0]), xs[1..], ys);
    }
  }

  /** A clear message wipes whatever came before it: only the later strokes remain. */
  lemma ClearForgetsHistory(data: seq<Line>, before: seq<Line>, after: seq<Line>)
    ensures Replay(data, before + [[]] + after) == Replay([], after)
  {
    ReplayAppend(data, before + [[]], after);
    ReplayAppend(data, before, [[]]);
  }

  /** The local state of the drawer's mouse handlers: whether a drag is under way, and its points. */
  datatype Pen = Pen(drawing: bool, current: Line)

  /** The state `setupCanvas` starts from. */
  const Idle: Pen := Pen(false, [])

  /** `onmousedown`: a new stroke starts at the mouse position. */
  function MouseDown(pen: Pen, p: Point): (r: Pen)
    ensures r.drawing && r.current == [p]
  {
    Pen(true, [p])
  }

  /** `onmousemove`: while drawing, the mouse position is added to the stroke. */
  function MouseMove(pen: Pen, p: Point): (r: Pen)
    ensures pen.drawing ==>
      && r.drawing && |r.current| == |pen.current| + 1
      && r.current[..|pen.current|] == pen.current && r.current[|pen.current|] == p
    ensures !pen.drawing ==> r == pen
  {
    if pen.drawing then pen.(current := pen.current + [p]) else pen
  }

  /** `onmouseleave`: the drag stops, but the points gathered so far are kept. */
  function MouseLeave(pen: Pen): (r: Pen)
    ensures !r.drawing && r.current == pen.current
  {
    pen.(drawing := false)
  }

  /** `onmouseup`: the stroke is sent only when it has more than one point; the pen is reset either way. */
  function MouseUp(pen: Pen): (r: (Pen, Option<Line>))
    ensures r.0 == Idle
    ensures r.1.Some? <==> |pen.current| > 1
    ensures r.1.Some? ==> r.1.value == pen.current
  {
    (Idle, if |pen.current| > 1 then Some(pen.current) else None)
  }

  function MoveThrough(pen: Pen, ps: seq<Point>): Pen
    decreases |ps|
  {
    if |ps| == 0 then pen else MoveThrough(MouseMove(pen, ps[0]), ps[1..])
  }

  lemma {:induction false} MoveThroughDrawing(current: Line, ps: seq<Point>)
    ensures MoveThrough(Pen(true, current), ps) == Pen(true, current + ps)
    decreases |ps|
  {
    if |ps| > 0 {
      assert current + [ps[0]] + ps[1..] == current + ps;
      MoveThroughDrawing(current + [ps[0]], ps[1..]);
    }
  }

  /**
   * A drag that presses at `p`, moves through `ps` and releases sends the
   * stroke `[p] + ps`, and sends nothing when the mouse never moved.
   */
  lemma DragSendsStroke(pen: Pen, p: Point, ps: seq<Point>)
    ensures MouseUp(MoveThrough(MouseDown(pen, p), ps)).1 ==
      if |ps| > 0 then Some([p] + ps) else None
  {
    MoveThroughDrawing([p], ps);
  }

  /** A stroke the pen sends is never the empty clear signal: receivers append it. */
  lemma SentStrokeIsAppended(pen: Pen, data: seq<Line>)
    requires MouseUp(pen).1.Some?
    ensures var line := MouseUp(pen).1.value;
      Deliver(data, line) == data + [line, line]
  {
  }

  /** Once the pen is lifted, moving the mouse changes nothing. */
  lemma {:induction false} MoveThroughIdle(current: Line, ps: seq<Point>)
    ensures MoveThrough(Pen(false, current), ps) == Pen(false, current)
    decreases |ps|
  {
    if |ps| > 0 {
      MoveThroughIdle(current, ps[1..]);
    }
  }

  /**
   * Leaving the canvas mid-drag ends the stroke: later moves are ignored, and
   * a release afterwards still sends the points gathered before leaving.
   */
  lemma LeaveThenRelease(p: Point, ps: seq<Point>, qs: seq<Point>)
    ensures var pen := MouseLeave(MoveThrough(MouseDown(Idle, p), ps));
      MouseUp(MoveThrough(pen, qs)).1 == if |ps| > 0 then Some([p] + ps) else None
  {
    MoveThroughDrawing([p], ps);
    MoveThroughIdle([p] + ps, qs);
  }
}

=== FILE: clock.dfy ===
/**
 * The client's `formatTime`: whole seconds as "MM:SS", built from
 * JavaScript's `Math.floor`, `%`, `toString` and `padStart(2, '0')`.
 */
module Clock {
  import opened Wrappers
  import Text

  predicate IsDigit(c: char) {
    '0' <= c <= '9'
  }

  predicate AllDigits(s: string) {
    forall i :: 0 <= i < |s| ==> IsDigit(s[i])
  }

  function DigitChar(d: nat): (c: char)
    requires d < 10
    ensures IsDigit(c)
  {
    ('0' as int + d) as char
  }

  function DigitValue(c: char): nat
    requires IsDigit(c)
  {
    c as int - '0' as int
  }

  /** The decimal numeral of `n`, without leading zeros. */
  function NatToString(n: nat): (r: string)
    ensures |r| >= 1 && AllDigits(r)
    ensures n < 10 <==> |r| == 1
    decreases n
  {
    if n < 10 then [DigitChar(n)] else NatToString(n / 10) + [DigitChar(n % 10)]
  }

  /** A number below 100 has at most two digits. */
  lemma ShortNumeral(n: nat)
    requires n < 100
    ensures |NatToString(n)| <= 2
  {
    if n >= 10 {
      assert n / 10 < 10;
    }
  }

  /** `n.toString()` for an integer-valued number. */
  function IntToString(n: int): (r: string)
    ensures n >= 0 ==> |r| >= 1 && AllDigits(r)
    ensures n < 0 ==> |r| >= 2 && r[0] == '-' && AllDigits(r[1..])
  {
    if n < 0 then "-" + NatToString(-n) else NatToString(n)
  }

  /** `s.padStart(2, '0')`. */
  function PadStart2(s: string): (r: string)
    ensures |r| == if |s| >= 2 then |s| else 2
    ensures |s| >= 2 ==> r == s
    ensures AllDigits(s) ==> AllDigits(r)
  {
    if |s| >= 2 then s else if |s| == 1 then "0" + s else "00"
  }

  /** Padding only puts zeros in front: the string itself ends the result. */
  lemma PadStart2Zeros(s: string)
    ensures var r := PadStart2(s);
      && r[|r| - |s|..] == s
      && forall i :: 0 <= i < |r| - |s| ==> r[i] == '0'
  {
  }

  /** JavaScript's `a % b` for `b > 0`: the remainder takes the sign of `a`. */
  function JsRem(a: int, b: int): (r: int)
    requires b > 0
    ensures -b < r < b
    ensures a >= 0 ==> 0 <= r
    ensures a <= 0 ==> r <= 0
    ensures a - r == (if a >= 0 then a / b else -((-a) / b)) * b
  {
    if a >= 0 then a % b else -((-a) % b)
  }

  /** `Math.floor(a / b)` for `b > 0`, which is Dafny's division when the divisor is positive. */
  function FloorDiv(a: int, b: int): (q: int)
    requires b > 0
    ensures q * b <= a < q * b + b
  {
    a / b
  }

  /** One field of the clock: `String(n).padStart(2, '0')`. */
  function Field(n: int): (r: string)
    ensures n >= 0 ==> |r| >= 2 && AllDigits(r)
    ensures 0 <= n < 100 ==> |r| == 2
  {
    if 0 <= n < 100 then ShortNumeral(n); PadStart2(IntToString(n)) else PadStart2(IntToString(n))
  }

  /** `formatTime(seconds)`. */
  function FormatTime(seconds: int): (r: string)
    ensures seconds >= 0 ==>
      && |r| >= 5 && r[|r| - 3] == ':'
      && AllDigits(r[..|r| - 3]) && AllDigits(r[|r| - 2..])
  {
    var m := Field(FloorDiv(seconds, 60));
    var s := Field(JsRem(seconds, 60));
    if seconds >= 0 then ClockShape(m, s); m + ":" + s else m + ":" + s
  }

  /** Two digit fields, the second of width two, joined by a colon. */
  lemma ClockShape(m: string, s: string)
    requires |m| >= 2 && AllDigits(m) && |s| == 2 && AllDigits(s)
    ensures var r := m + ":" + s;
      && |r| >= 5 && r[|r| - 3] == ':'
      && AllDigits(r[..|r| - 3]) && AllDigits(r[|r| - 2..])
  {
    var r := m + ":" + s;
    assert r[..|r| - 3] == m;
    assert r[|r| - 2..] == s;
  }

  /** The number a string of decimal digits denotes. */
  function DigitsValue(s: string): nat
    requires AllDigits(s)
  {
    if |s| == 0 then 0 else 10 * DigitsValue(s[..|s| - 1]) + DigitValue(s[|s| - 1])
  }

  /** Reads a minutes field and a seconds field below 60 as a number of seconds. */
  function ParseFields(minutes: string, seconds: string): Option<int> {
    if AllDigits(minutes) && AllDigits(seconds) && DigitsValue(seconds) < 60 then
      Some(60 * DigitsValue(minutes) + DigitsValue(seconds))
    else None
  }

  /** Reads "M...M:S...S" back as a number of seconds. */
  function ParseClock(r: string): Option<int> {
    var i := Text.IndexOf(r, ':');
    if i == |r| then None else ParseFields(r[..i], r[i + 1..])
  }

  lemma {:induction false} NatToStringValue(n: nat)
    ensures DigitsValue(NatToString(n)) == n
    decreases n
  {
    if n >= 10 {
      NatToStringValue(n / 10);
      var s := NatToString(n);
      assert s[..|s| - 1] == NatToString(n / 10);
    }
  }

  lemma {:induction false} LeadingZeroValue(s: string)
    requires AllDigits(s)
    ensures AllDigits("0" + s) && DigitsValue("0" + s) == DigitsValue(s)
    decreases |s|
  {
    if |s| > 0 {
      var t := "0" + s;
      assert t[..|t| - 1] == "0" + s[..|s| - 1];
      LeadingZeroValue(s[..|s| - 1]);
    }
  }

  lemma PadStart2Value(s: string)
    requires AllDigits(s)
    ensures AllDigits(PadStart2(s)) && DigitsValue(PadStart2(s)) == DigitsValue(s)
  {
    if |s| == 1 {
      LeadingZeroValue(s);
    } else if |s| == 0 {
      assert DigitsValue("00") == 0 by {
        assert "00"[..1] == "0";
      }
    }
  }

  /** A number below 100 becomes exactly its two digits. */
  lemma TwoDigits(n: nat)
    requires n < 100
    ensures Field(n) == [DigitChar(n / 10), DigitChar(n % 10)]
  {
    assert Field(n) == PadStart2(NatToString(n));
    if n < 10 {
      assert NatToString(n) == [DigitChar(n)];
      assert n / 10 == 0 && n % 10 == n;
    } else {
      assert NatToString(n / 10) == [DigitChar(n / 10)];
      assert NatToString(n) == [DigitChar(n / 10), DigitChar(n % 10)];
    }
  }

  /** For a non-negative time the fields are the quotient and remainder by 60. */
  lemma FormatTimeFields(seconds: int)
    requires seconds >= 0
    ensures FormatTime(seconds) == Field(seconds / 60) + ":" + Field(seconds % 60)
  {
    assert FloorDiv(seconds, 60) == seconds / 60;
    assert JsRem(seconds, 60) == seconds % 60;
  }

  /** For a time below 100 minutes the clock reads exactly "MM:SS", both fields zero-padded. */
  lemma FormatTimeShape(seconds: int)
    requires 0 <= seconds < 6000
    ensures var r := FormatTime(seconds);
      var m, s := seconds / 60, seconds % 60;
      r == [DigitChar(m / 10), DigitChar(m % 10), ':', DigitChar(s / 10), DigitChar(s % 10)]
  {
    var m, s := seconds / 60, seconds % 60;
    assert m < 100 && s < 60;
    FormatTimeFields(seconds);
    TwoDigits(m);
    TwoDigits(s);
    assert FormatTime(seconds) == [DigitChar(m / 10), DigitChar(m % 10)] + ":" + [DigitChar(s / 10), DigitChar(s % 10)];
  }

  lemma ParseFieldsValue(m: string, s: string)
    requires AllDigits(m) && AllDigits(s) && DigitsValue(s) < 60
    ensures ParseFields(m, s) == Some(60 * DigitsValue(m) + DigitsValue(s))
  {
  }

  /** A clock splits at its first colon, which follows a digit-only minutes field. */
  lemma ParseClockSplit(m: string, s: string)
    requires AllDigits(m)
    ensures ParseClock(m + ":" + s) == ParseFields(m, s)
  {
    var r := m + ":" + s;
    var i := Text.IndexOf(r, ':');
    assert i == |m| by {
      assert r[|m|] == ':';
      assert forall k :: 0 <= k < |m| ==> r[k] == m[k];
    }
    assert r[..i] == m;
    assert r[i + 1..] == s;
  }

  /** Two digit fields joined by a colon, seconds below 60, read back as minutes and seconds. */
  lemma ParseClockFields(m: string, s: string)
    requires AllDigits(m) && AllDigits(s) && DigitsValue(s) < 60
    ensures ParseClock(m + ":" + s) == Some(60 * DigitsValue(m) + DigitsValue(s))
  {
    ParseClockSplit(m, s);
    ParseFieldsValue(m, s);
  }

  /** A seconds field of 60 or more is not a clock. */
  lemma ParseClockRejectsSeconds(m: string, s: string)
    requires AllDigits(m) && AllDigits(s) && DigitsValue(s) >= 60
    ensures ParseClock(m + ":" + s) == None
  {
    ParseClockSplit(m, s);
  }

  /** One padded field reads back as the number it was made from. */
  lemma FieldValue(n: nat)
    ensures AllDigits(Field(n)) && DigitsValue(Field(n)) == n
  {
    assert Field(n) == PadStart2(NatToString(n));
    NatToStringValue(n);
    PadStart2Value(NatToString(n));
  }

  /**
   * Round trip: the clock of any non-negative time reads back as that time,
   * by a reader that refuses a seconds field of 60 or more.
   */
  lemma FormatTimeRoundTrip(seconds: int)
    requires seconds >= 0
    ensures ParseClock(FormatTime(seconds)) == Some(seconds)
  {
    var q, r := seconds / 60, seconds % 60;
    FormatTimeFields(seconds);
    FieldValue(q);
    FieldValue(r);
    ParseClockFields(Field(q), Field(r));
  }

  /** A countdown seeded with 0 minutes first sends -1, which the clock shows as "-1:-1". */
  lemma FormatTimeMinusOne()
    ensures FormatTime(-1) == "-1:-1"
  {
    assert NatToString(1) == "1";
  }
}

=== FILE: drawer.dfy ===
/**
 * The client's second `update` listener: whether the local player draws,
 * and which word it is shown. The drawer is not stored anywhere; it is the
 * first entry of the local player's own team list.
 */
module Drawer {
  import opened Room
  import opened Gateway

  function SnapMembers(s: Snapshot, t: Team): seq<Player> {
    if t == A then s.teamA else s.teamB
  }

  /** `me && g.teams[me.team][0] && g.teams[me.team][0].name === playerName`. */
  predicate IsDrawer(s: Snapshot, me: string)
    ensures IsDrawer(s, me) ==> me in Names(s.players)
  {
    var i := FindName(s.players, me);
    && i < |s.players|
    && |SnapMembers(s, s.players[i].team)| > 0
    && SnapMembers(s, s.players[i].team)[0].name == me
  }

  /** `isDrawer ? g.currentWord : ''`. */
  function ShownWord(s: Snapshot, me: string): (w: string)
    ensures IsDrawer(s, me) ==> w == s.currentWord
    ensures !IsDrawer(s, me) ==> w == ""
  {
    if IsDrawer(s, me) then s.currentWord else ""
  }

  /** `me` heads the list of team t. */
  predicate Heads(g: Game, t: Team, me: string) {
    |Members(g, t)| > 0 && Members(g, t)[0].name == me
  }

  /** In a consistent room, the drawers are exactly the heads of the two team lists. */
  lemma DrawerIsTeamHead(g: Game, me: string)
    requires TeamsConsistent(g)
    ensures IsDrawer(SnapshotOf(g), me) <==> Heads(g, A, me) || Heads(g, B, me)
  {
    var s := SnapshotOf(g);
    assert forall t :: SnapMembers(s, t) == Members(g, t);
    var i := FindName(g.players, me);
    if Heads(g, A, me) || Heads(g, B, me) {
      var t := if Heads(g, A, me) then A else B;
      var q := Members(g, t)[0];
      ListOkOf(g, t);
      assert q in Members(g, t);
      assert q in g.players && q.team == t;
      SameNameSamePlayer(g.players, q, g.players[i]);
    }
  }

  /** Each team has at most one drawer. */
  lemma OneDrawerPerTeam(g: Game, me: string, you: string)
    requires TeamsConsistent(g)
    requires IsDrawer(SnapshotOf(g), me) && IsDrawer(SnapshotOf(g), you)
    requires FindName(g.players, me) < |g.players| && FindName(g.players, you) < |g.players|
    requires g.players[FindName(g.players, me)].team == g.players[FindName(g.players, you)].team
    ensures me == you
  {
  }

  lemma WithoutDropsHead(d: Player, n: Player, rest: seq<Player>)
    requires d.name != n.name
    ensures var w := Without([d, n] + rest, d.name); |w| > 0 && w[0] == n
  {
    assert ([d, n] + rest)[1..] == [n] + rest;
    assert ([n] + rest)[1..] == rest;
  }

  /**
   * When a team's drawer disconnects, the next player of that team's list
   * becomes its drawer.
   */
  lemma DrawerSuccession(g: Game, t: Team, d: Player, n: Player, rest: seq<Player>)
    requires TeamsConsistent(g) && Members(g, t) == [d, n] + rest
    ensures IsDrawer(SnapshotOf(Disconnect(g, d.name)), n.name)
  {
    ListOkOf(g, t);
    assert d.name != n.name by {
      assert Members(g, t)[0] == d && Members(g, t)[1] == n;
    }
    var r := Disconnect(g, d.name);
    DisconnectMembers(g, d.name, t);
    WithoutDropsHead(d, n, rest);
    assert Heads(r, t, n.name);
    DisconnectPreservesTeams(g, d.name);
    DrawerIsTeamHead(r, n.name);
  }

  /** Only the drawer sees the word. */
  lemma WordOnlyForDrawer(g: Game, me: string)
    requires TeamsConsistent(g)
    ensures ShownWord(SnapshotOf(g), me) == (if Heads(g, A, me) || Heads(g, B, me) then g.currentWord else "")
  {
    DrawerIsTeamHead(g, me);
  }
}

=== FILE: gateway.dfy ===
/**
 * The room registry and the real-time gateway: the REST entry points
 * (create, join) and the socket event handlers, each as one atomic step
 * over the registry that also lists the messages it sends.
 */
module Gateway {
  import opened Wrappers
  import opened Strokes
  import opened Words
  import opened Room
  import opened Round
  import opened Timer

  /** The fields of a room sent in an `update` message. */
  datatype Snapshot = Snapshot(
    code: string,
    players: seq<Player>,
    teamA: seq<Player>,
    teamB: seq<Player>,
    started: bool,
    time: int,
    scores: map<string, int>,
    currentWord: string,
    topic: string)

  function SnapshotOf(g: Game): (r: Snapshot)
    ensures r.players == g.players && r.teamA == g.teamA && r.teamB == g.teamB
    ensures r.scores == g.scores && r.currentWord == g.currentWord
    ensures r.code == g.code && r.started == g.started && r.time == g.time && r.topic == g.topic
  {
    Snapshot(g.code, g.players, g.teamA, g.teamB, g.started, g.time, g.scores, g.currentWord, g.topic)
  }

  /** An `update` does not reveal the word pool, the strokes or the guessed flag. */
  lemma SnapshotHidesRoundState(g: Game, words: seq<string>, data: seq<Line>, guessed: bool)
    ensures SnapshotOf(g.(words := words, drawingData := data, guessed := guessed)) == SnapshotOf(g)
  {
  }

  /** Messages the server sends. An empty `Drawing` line tells clients to clear the canvas. */
  datatype Event =
    | Update(snapshot: Snapshot)
    | GameStarted
    | Tick(remaining: int)
    | GameEnded
    | Drawing(line: Line)
    | GuessFeedback(message: string)

  /** A message to every socket in a room, or back to the sending socket only. */
  datatype Emit = ToRoom(room: string, event: Event) | ToSender(event: Event)

  /** The process-wide room registry, keyed by room code. */
  type Games = map<string, Game>

  /** What a socket remembers after `join-game`: its room code and player name. */
  datatype Session = Session(code: string, name: string)

  /** The registry after a socket event, and the messages sent. */
  datatype Step = Step(games: Games, out: seq<Emit>)

  const DefaultTopic: string := "anything"

  /** Minutes per round of a new room. */
  const DefaultTime: int := 5

  lemma EmptyRoomValid(g: Game)
    requires g.players == [] && g.teamA == [] && g.teamB == [] && g.scores == map[]
    ensures Valid(g)
  {
    assert Names(g.players) == {};
    assert Members(g, A) == [] && Members(g, B) == [];
  }

  /** A fresh room whose word pool is parsed from the provider's reply. */
  function NewGame(code: string, topic: string, reply: string): (g: Game)
    ensures g.players == [] && g.teamA == [] && g.teamB == [] && g.scores == map[]
    ensures g.code == code && g.topic == topic && g.words == ParseWords(reply)
    ensures g.time == DefaultTime && !g.started && g.currentWord == "" && g.drawingData == [] && !g.guessed
    ensures Valid(g)
    ensures AllWords(g.words)
  {
    var g := Game(code, [], [], [], false, DefaultTime, map[], "", topic, ParseWords(reply), [], false);
    EmptyRoomValid(g);
    g
  }

  /**
   * `POST /api/create-game`: the room is stored under `code` (randomly drawn
   * by the server, a parameter here), with topic "anything" when none is given.
   * Nothing checks whether the code is already in use.
   */
  function CreateGame(games: Games, code: string, topic: Option<string>, reply: string): (r: Games)
    ensures r.Keys == games.Keys + {code}
    ensures r[code] == NewGame(code, topic.GetOr(DefaultTopic), reply)
    ensures forall c :: c in games && c != code ==> r[c] == games[c]
  {
    games[code := NewGame(code, topic.GetOr(DefaultTopic), reply)]
  }

  /** A code collision silently replaces the live room: all its players and scores are lost. */
  lemma CreateGameCollision(games: Games, code: string, topic: Option<string>, reply: string)
    requires code in games && |games[code].players| > 0
    ensures CreateGame(games, code, topic, reply)[code].players == []
    ensures CreateGame(games, code, topic, reply)[code] != games[code]
  {
  }

  /** The answer to `POST /api/join-game`. */
  datatype JoinReply = Joined | Rejected(status: int, error: string)

  /** `POST /api/join-game`. */
  function JoinGame(games: Games, code: string, name: string): (r: (Games, JoinReply))
    ensures code !in games ==> r == (games, Rejected(404, "Game not found"))
    ensures code in games && name in Names(games[code].players) ==>
      r == (games, Rejected(400, "Name already taken"))
    ensures r.1 == Joined <==> code in games && name !in Names(games[code].players)
    ensures r.1 == Joined ==> r.0 == games[code := Join(games[code], name).value]
  {
    if code !in games then (games, Rejected(404, "Game not found"))
    else
      match Join(games[code], name)
      case Err(_) => (games, Rejected(400, "Name already taken"))
      case Ok(g) => (games[code := g], Joined)
  }

  /** Socket `join-game`: a socket that names a live room is attached to it. */
  function OnJoinGame(games: Games, session: Option<Session>, code: string, name: string): (r: (Option<Session>, seq<Emit>))
    ensures code !in games ==> r == (session, [])
    ensures code in games ==> r.0 == Some(Session(code, name)) && r.1 == [ToRoom(code, Update(SnapshotOf(games[code])))]
  {
    if code !in games then (session, [])
    else (Some(Session(code, name)), [ToRoom(code, Update(SnapshotOf(games[code])))])
  }

  /** The room a socket event addresses, when the socket has one and it is live. */
  function RoomOf(games: Games, session: Option<Session>): (r: Option<string>)
    ensures r.Some? <==> session.Some? && session.value.code in games
    ensures r.Some? ==> r.value == session.value.code && r.value in games
  {
    if session.Some? && session.value.code in games then Some(session.value.code) else None
  }

  /** Stores the changed room and broadcasts its snapshot. */
  function Commit(games: Games, code: string, g: Game): Step {
    Step(games[code := g], [ToRoom(code, Update(SnapshotOf(g)))])
  }

  /**
   * A step touched only room `code`, which stays registered, and its one
   * message is an `update` to that room carrying the room as stored.
   */
  predicate Broadcasts(games: Games, code: string, r: Step) {
    && r.games.Keys == games.Keys
    && code in r.games
    && (forall c :: c in games && c != code ==> r.games[c] == games[c])
    && r.out == [ToRoom(code, Update(SnapshotOf(r.games[code])))]
  }

  /** Socket `switch-team`. */
  function OnSwitchTeam(games: Games, session: Option<Session>): (r: Step)
    ensures RoomOf(games, session).None? ==> r == Step(games, [])
    ensures RoomOf(games, session).Some? ==> var code := session.value.code;
      && (session.value.name !in Names(games[code].players) ==> r == Step(games, []))
      && (session.value.name in Names(games[code].players) ==>
            Broadcasts(games, code, r) && r.games == games[code := SwitchTeam(games[code], session.value.name)])
  {
    match RoomOf(games, session)
    case None => Step(games, [])
    case Some(code) =>
      var g := games[code];
      if session.value.name !in Names(g.players) then Step(games, [])
      else Commit(games, code, SwitchTeam(g, session.value.name))
  }

  /** Socket `set-time`. */
  function OnSetTime(games: Games, session: Option<Session>, minutes: int): (r: Step)
    ensures RoomOf(games, session).None? ==> r == Step(games, [])
    ensures RoomOf(games, session).Some? ==> var code := session.value.code;
      Broadcasts(games, code, r) && r.games == games[code := SetTime(games[code], minutes)]
  {
    match RoomOf(games, session)
    case None => Step(games, [])
    case Some(code) => Commit(games, code, SetTime(games[code], minutes))
  }

  /** Socket `start-game`; the countdown it starts is `TimerEmits`. */
  function OnStartGame(games: Games, session: Option<Session>, reply: string): (r: Step)
    ensures RoomOf(games, session).None? ==> r == Step(games, [])
    ensures RoomOf(games, session).Some? ==> var code := session.value.code;
      && r.games == games[code := StartGame(games[code], reply)]
      && r.games[code].started
      && r.out == [ToRoom(code, Update(SnapshotOf(r.games[code]))), ToRoom(code, GameStarted)]
  {
    match RoomOf(games, session)
    case None => Step(games, [])
    case Some(code) =>
      var g := StartGame(games[code], reply);
      Step(games[code := g], [ToRoom(code, Update(SnapshotOf(g))), ToRoom(code, GameStarted)])
  }

  /** Socket `draw`: the room comes from the message, and the stroke is relayed as sent. */
  function OnDraw(games: Games, code: string, line: Line): (r: Step)
    ensures code !in games ==> r == Step(games, [])
    ensures code in games ==> r.out == [ToRoom(code, Drawing(line))]
    ensures code in games ==> r.games == games[code := Draw(games[code], line)]
  {
    if code !in games then Step(games, [])
    else Step(games[code := Draw(games[code], line)], [ToRoom(code, Drawing(line))])
  }

  /** The messages that answer a guess. */
  function GuessEmits(code: string, v: Verdict, g: Game): (r: seq<Emit>)
    ensures r == [] <==> v == Ignored
    ensures v == Incorrect ==> r == [ToSender(GuessFeedback("Incorrect!"))]
    ensures v == Correct ==>
      && |r| == 3 && (forall e :: e in r ==> e.ToRoom? && e.room == code)
      && r[0].event == GuessFeedback("Correct!") && r[1].event == Update(SnapshotOf(g))
      && r[2].event == Drawing([])
  {
    match v
    case Ignored => []
    case Incorrect => [ToSender(GuessFeedback("Incorrect!"))]
    case Correct =>
      [ToRoom(code, GuessFeedback("Correct!")), ToRoom(code, Update(SnapshotOf(g))), ToRoom(code, Drawing([]))]
  }

  /** Socket `guess`. */
  function OnGuess(games: Games, code: string, name: string, guess: string, reply: string): (r: Step)
    ensures code !in games ==> r == Step(games, [])
    ensures code in games && (games[code].currentWord == "" || games[code].guessed) ==> r == Step(games, [])
    ensures code in games ==> r.games == games[code := Guess(games[code], name, guess, reply).0]
  {
    if code !in games then Step(games, [])
    else
      var (g, v) := Guess(games[code], name, guess, reply);
      Step(games[code := g], GuessEmits(code, v, g))
  }

  /** An incorrect guess changes nothing and is answered to the guesser alone. */
  lemma IncorrectGuessIsPrivate(games: Games, code: string, name: string, guess: string, reply: string)
    requires code in games && Guess(games[code], name, guess, reply).1 == Incorrect
    ensures OnGuess(games, code, name, guess, reply) == Step(games, [ToSender(GuessFeedback("Incorrect!"))])
  {
    var g := games[code];
    assert Guess(g, name, guess, reply).0 == g;
    assert OnGuess(games, code, name, guess, reply) == Step(games[code := g], GuessEmits(code, Incorrect, g));
    assert games[code := g] == games;
  }

  /** A correct guess is announced to the room, followed by the new round's snapshot and a canvas clear. */
  lemma CorrectGuessIsBroadcast(games: Games, code: string, name: string, guess: string, reply: string)
    requires code in games && Guess(games[code], name, guess, reply).1 == Correct
    ensures var r := OnGuess(games, code, name, guess, reply);
      && code in r.games
      && r.out == [ToRoom(code, GuessFeedback("Correct!")), ToRoom(code, Update(SnapshotOf(r.games[code]))),
                   ToRoom(code, Drawing([]))]
      && r.games[code].scores[name] == ScoreOf(games[code].scores, name) + GuessPoints
  {
    var gv := Guess(games[code], name, guess, reply);
    CorrectGuessEffect(games[code], name, guess, reply);
    assert OnGuess(games, code, name, guess, reply) == Step(games[code := gv.0], GuessEmits(code, Correct, gv.0));
  }

  /** Socket `disconnect`: a socket that never joined, or whose code or name is empty, changes nothing. */
  function OnDisconnect(games: Games, session: Option<Session>): (r: Step)
    ensures RoomOf(games, session).None? ==> r == Step(games, [])
    ensures RoomOf(games, session).Some? ==> var code := session.value.code;
      && (code == "" || session.value.name == "" ==> r == Step(games, []))
      && (code != "" && session.value.name != "" ==>
            Broadcasts(games, code, r) && r.games == games[code := Disconnect(games[code], session.value.name)])
  {
    match RoomOf(games, session)
    case None => Step(games, [])
    case Some(code) =>
      if code == "" || session.value.name == "" then Step(games, [])
      else Commit(games, code, Disconnect(games[code], session.value.name))
  }

  /** The messages of a countdown started for `minutes`, with `last` the room when it runs out. */
  function TimerEmits(code: string, minutes: int, last: Game): (r: seq<Emit>)
    ensures var ticks := Ticks(minutes * 60);
      && |r| == |ticks| + 2
      && (forall k :: 0 <= k < |ticks| ==> r[k] == ToRoom(code, Tick(ticks[k])))
      && r[|r| - 2] == ToRoom(code, Update(SnapshotOf(last)))
    ensures forall k :: 0 <= k < |r| ==> r[k].ToRoom? && r[k].room == code
    ensures r[|r| - 1].event == GameEnded
    ensures forall k :: 0 <= k < |r| - 1 ==> r[k].event != GameEnded
  {
    var ticks := Ticks(minutes * 60);
    seq(|ticks|, k requires 0 <= k < |ticks| => ToRoom(code, Tick(ticks[k])))
      + [ToRoom(code, Update(SnapshotOf(last))), ToRoom(code, GameEnded)]
  }

  /** Every room of the registry is consistent. */
  predicate AllValid(games: Games) {
    forall c :: c in games ==> Valid(games[c])
  }

  lemma StoreValid(games: Games, code: string, g: Game)
    requires AllValid(games) && Valid(g)
    ensures AllValid(games[code := g])
  {
  }

  /** Creating a room and joining one keep every room consistent. */
  lemma RestPreservesAllValid(games: Games, code: string, name: string, topic: Option<string>, reply: string)
    requires AllValid(games)
    ensures AllValid(CreateGame(games, code, topic, reply))
    ensures AllValid(JoinGame(games, code, name).0)
  {
    StoreValid(games, code, NewGame(code, topic.GetOr(DefaultTopic), reply));
    if code in games && Join(games[code], name).Ok? {
      JoinPreservesValid(games[code], name);
      StoreValid(games, code, Join(games[code], name).value);
    }
  }

  /** The lobby handlers keep every room consistent. */
  lemma SwitchTeamAllValid(games: Games, session: Option<Session>)
    requires AllValid(games)
    ensures AllValid(OnSwitchTeam(games, session).games)
  {
    if RoomOf(games, session).Some? {
      var c := session.value.code;
      SwitchTeamPreservesValid(games[c], session.value.name);
      StoreValid(games, c, SwitchTeam(games[c], session.value.name));
    }
  }

  lemma SetTimeAllValid(games: Games, session: Option<Session>, minutes: int)
    requires AllValid(games)
    ensures AllValid(OnSetTime(games, session, minutes).games)
  {
    if RoomOf(games, session).Some? {
      var c := session.value.code;
      SameRosterValid(games[c], SetTime(games[c], minutes));
      StoreValid(games, c, SetTime(games[c], minutes));
    }
  }

  lemma DisconnectAllValid(games: Games, session: Option<Session>)
    requires AllValid(games)
    ensures AllValid(OnDisconnect(games, session).games)
  {
    if RoomOf(games, session).Some? {
      var c := session.value.code;
      DisconnectPreservesValid(games[c], session.value.name);
      StoreValid(games, c, Disconnect(games[c], session.value.name));
    }
  }

  /** The lobby handlers keep every room consistent. */
  lemma LobbyPreservesAllValid(games: Games, session: Option<Session>, minutes: int)
    requires AllValid(games)
    ensures AllValid(OnSwitchTeam(games, session).games)
    ensures AllValid(OnSetTime(games, session, minutes).games)
    ensures AllValid(OnDisconnect(games, session).games)
  {
    SwitchTeamAllValid(games, session);
    SetTimeAllValid(games, session, minutes);
    DisconnectAllValid(games, session);
  }

  /**
   * The round handlers keep every room consistent, except a correct guess
   * sent under a name that is not a player of the room (see
   * Round.GuessByStrangerAddsScore).
   */
  lemma PlayPreservesAllValid(games: Games, session: Option<Session>, code: string, name: string,
                              guess: string, line: Line, reply: string)
    requires AllValid(games)
    ensures AllValid(OnStartGame(games, session, reply).games)
    ensures AllValid(OnDraw(games, code, line).games)
    ensures code in games && name in Names(games[code].players) ==>
      AllValid(OnGuess(games, code, name, guess, reply).games)
  {
    if RoomOf(games, session).Some? {
      var c := session.value.code;
      StartRoundPreservesValid(games[c], reply);
      StoreValid(games, c, StartGame(games[c], reply));
    }
    if code in games {
      var g := games[code];
      SameRosterValid(g, Draw(g, line));
      StoreValid(games, code, Draw(g, line));
      if name in Names(g.players) {
        GuessPreservesValid(g, name, guess, reply);
        StoreValid(games, code, Guess(g, name, guess, reply).0);
      }
    }
  }
}

=== FILE: room.dfy ===
/**
 * The authoritative state of one room and the roster bookkeeping done by
 * its handlers: REST join, `switch-team`, `set-time`, `draw` and
 * `disconnect`. The word-pool and guessing transitions are in module Round.
 */
module Room {
  import opened Wrappers
  import opened Strokes

  datatype Team = A | B

  function Other(t: Team): Team {
    if t == A then B else A
  }

  /** A participant; the name is the player's identity within a room. */
  datatype Player = Player(name: string, team: Team)

  /**
   * One room. `teamA`/`teamB` are the two team lists; `time` is the round
   * length in minutes; `words` is the word pool, popped from its end.
   */
  datatype Game = Game(
    code: string,
    players: seq<Player>,
    teamA: seq<Player>,
    teamB: seq<Player>,
    started: bool,
    time: int,
    scores: map<string, int>,
    currentWord: string,
    topic: string,
    words: seq<string>,
    drawingData: seq<Line>,
    guessed: bool)

  /** `game.teams[t]`. */
  function Members(g: Game, t: Team): seq<Player> {
    if t == A then g.teamA else g.teamB
  }

  /** `game.teams[t] = ps`. */
  function WithMembers(g: Game, t: Team, ps: seq<Player>): (r: Game)
    ensures Members(r, t) == ps && Members(r, Other(t)) == Members(g, Other(t))
    ensures r.players == g.players && r.scores == g.scores
  {
    if t == A then g.(teamA := ps) else g.(teamB := ps)
  }

  function Names(ps: seq<Player>): set<string> {
    set p | p in ps :: p.name
  }

  predicate UniqueNames(ps: seq<Player>) {
    forall i, j :: 0 <= i < j < |ps| ==> ps[i].name != ps[j].name
  }

  /** `ps.findIndex(p => p.name === name)`, with `|ps|` standing for "not found". */
  function FindName(ps: seq<Player>, name: string): (i: nat)
    ensures i <= |ps|
    ensures i < |ps| ==> ps[i].name == name
    ensures forall k :: 0 <= k < i ==> ps[k].name != name
    ensures i == |ps| <==> name !in Names(ps)
  {
    if |ps| == 0 then 0
    else if ps[0].name == name then 0
    else
      var i := 1 + FindName(ps[1..], name);
      assert Names(ps) == {ps[0].name} + Names(ps[1..]) by {
        assert ps == [ps[0]] + ps[1..];
      }
      i
  }

  /** `ps.filter(p => p.name !== name)`. */
  function Without(ps: seq<Player>, name: string): (r: seq<Player>)
    ensures |r| <= |ps|
    ensures forall i :: 0 <= i < |r| ==> r[i].name != name
  {
    if |ps| == 0 then []
    else if ps[0].name == name then Without(ps[1..], name)
    else [ps[0]] + Without(ps[1..], name)
  }

  /** The filter keeps exactly the entries with another name. */
  lemma {:induction false} WithoutMembers(ps: seq<Player>, name: string)
    ensures forall p :: p in Without(ps, name) <==> p in ps && p.name != name
  {
    if |ps| > 0 {
      WithoutMembers(ps[1..], name);
      assert ps == [ps[0]] + ps[1..];
    }
  }

  /** The filter keeps the relative order: it distributes over concatenation. */
  lemma {:induction false} WithoutAppend(xs: seq<Player>, ys: seq<Player>, name: string)
    ensures Without(xs + ys, name) == Without(xs, name) + Without(ys, name)
  {
    if |xs| == 0 {
      assert xs + ys == ys;
    } else {
      assert (xs + ys)[1..] == xs[1..] + ys;
      WithoutAppend(xs[1..], ys, name);
    }
  }

  /** Filtering out a name that is absent changes nothing. */
  lemma {:induction false} WithoutAbsent(ps: seq<Player>, name: string)
    requires name !in Names(ps)
    ensures Without(ps, name) == ps
  {
    if |ps| > 0 {
      assert ps[0] in ps;
      assert Names(ps[1..]) <= Names(ps);
      WithoutAbsent(ps[1..], name);
      assert ps == [ps[0]] + ps[1..];
    }
  }

  lemma {:induction false} WithoutUnique(ps: seq<Player>, name: string)
    requires UniqueNames(ps)
    ensures UniqueNames(Without(ps, name))
  {
    if |ps| > 0 {
      WithoutUnique(ps[1..], name);
      WithoutMembers(ps[1..], name);
      var rest := Without(ps[1..], name);
      if ps[0].name != name {
        forall j | 0 <= j < |rest|
          ensures ps[0].name != rest[j].name
        {
          assert rest[j] in ps[1..];
        }
      }
    }
  }

  lemma UniqueNamesAppend(ps: seq<Player>, p: Player)
    requires UniqueNames(ps) && p.name !in Names(ps)
    ensures UniqueNames(ps + [p])
  {
    forall i | 0 <= i < |ps|
      ensures ps[i].name != p.name
    {
      assert ps[i] in ps;
    }
  }

  /** Team list t holds each name at most once, and only players whose `team` field is t. */
  predicate ListOk(g: Game, t: Team) {
    && UniqueNames(Members(g, t))
    && (forall p :: p in Members(g, t) ==> p.team == t && p in g.players)
  }

  /** Every player sits in the team list its `team` field names. */
  predicate Placed(g: Game) {
    forall p :: p in g.players ==> p in Members(g, p.team)
  }

  /**
   * Both team lists are well kept and every player sits in its own list.
   * Together with unique player names this places each player in exactly
   * one list, once (lemma ExactlyOneTeam).
   */
  predicate TeamsConsistent(g: Game) {
    UniqueNames(g.players) && ListOk(g, A) && ListOk(g, B) && Placed(g)
  }

  /** The scores are keyed by exactly the players' names. */
  predicate ScoresTrackPlayers(g: Game) {
    g.scores.Keys == Names(g.players)
  }

  predicate Valid(g: Game) {
    TeamsConsistent(g) && ScoresTrackPlayers(g)
  }

  lemma ListOkOf(g: Game, t: Team)
    requires TeamsConsistent(g)
    ensures ListOk(g, t)
  {
    if t == A {} else {}
  }

  /** In a list with unique names, a name identifies one entry. */
  lemma SameNameSamePlayer(ps: seq<Player>, p: Player, q: Player)
    requires UniqueNames(ps) && p in ps && q in ps && p.name == q.name
    ensures p == q
  {
    var i :| 0 <= i < |ps| && ps[i] == p;
    var j :| 0 <= j < |ps| && ps[j] == q;
    assert i == j;
  }

  /** A player of a consistent room is in its own team list, not in the other, and is the only entry with its name in either. */
  lemma ExactlyOneTeam(g: Game, p: Player, t: Team)
    requires TeamsConsistent(g) && p in g.players
    ensures p in Members(g, p.team) && p !in Members(g, Other(p.team))
    ensures forall q :: q in Members(g, t) && q.name == p.name ==> q == p
  {
    ListOkOf(g, t);
    ListOkOf(g, Other(p.team));
    forall q | q in Members(g, t) && q.name == p.name
      ensures q == p
    {
      SameNameSamePlayer(g.players, p, q);
    }
  }

  /** The outcome of the REST join request. */
  datatype JoinError = GameNotFound | NameTaken

  /**
   * The body of `POST /api/join-game` once the room is found: a name already
   * present is refused; otherwise the player is appended to `players` and to
   * team A, and scores 0.
   */
  function Join(g: Game, name: string): (r: Result<Game, JoinError>)
    ensures r.Err? <==> name in Names(g.players)
    ensures r.Err? ==> r.error == NameTaken
    ensures r.Ok? ==> var p := Player(name, A);
      && r.value.players == g.players + [p]
      && r.value.teamA == g.teamA + [p]
      && r.value.teamB == g.teamB
      && r.value.scores == g.scores[name := 0]
      && r.value.(players := g.players, teamA := g.teamA, scores := g.scores) == g
  {
    if FindName(g.players, name) < |g.players| then Err(NameTaken)
    else
      var p := Player(name, A);
      Ok(g.(players := g.players + [p], teamA := g.teamA + [p], scores := g.scores[name := 0]))
  }

  /** A name absent from the players is absent from team list t. */
  lemma AbsentFromTeam(g: Game, name: string, t: Team)
    requires ListOk(g, t) && name !in Names(g.players)
    ensures name !in Names(Members(g, t))
  {
    forall q | q in Members(g, t) ensures q.name != name {
      assert q in g.players;
    }
  }

  lemma JoinPreservesTeams(g: Game, name: string)
    requires TeamsConsistent(g) && name !in Names(g.players)
    ensures TeamsConsistent(Join(g, name).value)
  {
    var r := Join(g, name).value;
    var p := Player(name, A);
    UniqueNamesAppend(g.players, p);
    AbsentFromTeam(g, name, A);
    UniqueNamesAppend(g.teamA, p);
    assert Members(r, A) == Members(g, A) + [p];
    assert Members(r, B) == Members(g, B);
    assert ListOk(r, A);
    assert ListOk(r, B);
  }

  /** A successful join keeps every player in its own team and the scores in step. */
  lemma JoinPreservesValid(g: Game, name: string)
    requires Valid(g) && Join(g, name).Ok?
    ensures Valid(Join(g, name).value)
  {
    var r := Join(g, name).value;
    JoinPreservesTeams(g, name);
    assert Names(r.players) == Names(g.players) + {name} by {
      assert r.players == g.players + [Player(name, A)];
    }
  }

  /**
   * The `switch-team` handler: the player's `team` flips, it leaves the old
   * team list and is appended to the other one. An unknown name is a no-op.
   */
  function SwitchTeam(g: Game, name: string): (r: Game)
    ensures name !in Names(g.players) ==> r == g
    ensures r.(players := g.players, teamA := g.teamA, teamB := g.teamB) == g
  {
    var i := FindName(g.players, name);
    if i == |g.players| then g
    else
      var p := g.players[i];
      var moved := Player(p.name, Other(p.team));
      var left := WithMembers(g, p.team, Without(Members(g, p.team), name));
      var flipped := left.(players := g.players[i := moved]);
      WithMembers(flipped, moved.team, Members(flipped, moved.team) + [moved])
  }

  /** The shape of `switch-team` on the player at position i. */
  lemma SwitchTeamShape(g: Game, name: string, i: nat)
    requires i < |g.players| && i == FindName(g.players, name)
    ensures var p := g.players[i];
      var moved := Player(name, Other(p.team));
      var r := SwitchTeam(g, name);
      && r.players == g.players[i := moved]
      && Members(r, p.team) == Without(Members(g, p.team), name)
      && Members(r, Other(p.team)) == Members(g, Other(p.team)) + [moved]
      && r.scores == g.scores
  {
  }

  /**
   * What `switch-team` does to a player of a consistent room: that entry of
   * `players` flips its team in place, the player leaves its old list and
   * is appended to the end of the other one.
   */
  lemma SwitchTeamMoves(g: Game, p: Player)
    requires UniqueNames(g.players) && p in g.players
    ensures var r := SwitchTeam(g, p.name);
      var moved := Player(p.name, Other(p.team));
      && |r.players| == |g.players|
      && (forall k :: 0 <= k < |g.players| ==>
            r.players[k] == (if g.players[k] == p then moved else g.players[k]))
      && Members(r, p.team) == Without(Members(g, p.team), p.name)
      && Members(r, Other(p.team)) == Members(g, Other(p.team)) + [moved]
  {
    var i := FindName(g.players, p.name);
    SameNameSamePlayer(g.players, p, g.players[i]);
    SwitchTeamShape(g, p.name, i);
    forall k | 0 <= k < |g.players| && g.players[k] == p
      ensures k == i
    {
    }
  }

  /** Replacing an entry by one with the same name keeps the set of names and their uniqueness. */
  lemma ReplaceSameName(ps: seq<Player>, i: nat, q: Player)
    requires i < |ps| && q.name == ps[i].name
    ensures Names(ps[i := q]) == Names(ps)
    ensures UniqueNames(ps) ==> UniqueNames(ps[i := q])
  {
    var rs := ps[i := q];
    forall n | n in Names(ps) ensures n in Names(rs) {
      var k :| 0 <= k < |ps| && ps[k].name == n;
      assert rs[k].name == n;
    }
    forall n | n in Names(rs) ensures n in Names(ps) {
      var k :| 0 <= k < |rs| && rs[k].name == n;
      assert ps[k].name == n;
    }
  }

  /** A player with another name keeps its place when entry i is replaced. */
  lemma OthersStay(ps: seq<Player>, i: nat, moved: Player, q: Player)
    requires i < |ps| && moved.name == ps[i].name
    requires q in ps && q.name != moved.name
    ensures q in ps[i := moved]
  {
    var k :| 0 <= k < |ps| && ps[k] == q;
    assert ps[i := moved][k] == q;
  }

  /** The list a player leaves stays well kept. */
  lemma LeftListOk(g: Game, r: Game, i: nat, t: Team)
    requires ListOk(g, t) && i < |g.players|
    requires var moved := Player(g.players[i].name, Other(t));
      r.players == g.players[i := moved] && Members(r, t) == Without(Members(g, t), moved.name)
    ensures ListOk(r, t)
  {
    var name := g.players[i].name;
    WithoutMembers(Members(g, t), name);
    WithoutUnique(Members(g, t), name);
    forall q | q in Members(r, t)
      ensures q.team == t && q in r.players
    {
      OthersStay(g.players, i, Player(name, Other(t)), q);
    }
  }

  /** The list a player joins stays well kept. */
  lemma JoinedListOk(g: Game, r: Game, i: nat, t: Team)
    requires ListOk(g, Other(t)) && UniqueNames(g.players) && i < |g.players| && g.players[i].team == t
    requires var moved := Player(g.players[i].name, Other(t));
      r.players == g.players[i := moved] && Members(r, Other(t)) == Members(g, Other(t)) + [moved]
    ensures ListOk(r, Other(t))
  {
    var p := g.players[i];
    var moved := Player(p.name, Other(t));
    var other := Members(g, Other(t));
    forall q | q in other ensures q.name != p.name {
      if q.name == p.name {
        SameNameSamePlayer(g.players, p, q);
      }
    }
    UniqueNamesAppend(other, moved);
    forall q | q in Members(r, Other(t))
      ensures q.team == Other(t) && q in r.players
    {
      if q != moved {
        assert q in other;
        OthersStay(g.players, i, moved, q);
      } else {
        assert r.players[i] == moved;
      }
    }
  }

  /** After a move every player still sits in its own list. */
  lemma MovedPlayersPlaced(g: Game, r: Game, i: nat, t: Team)
    requires Placed(g) && UniqueNames(g.players) && i < |g.players| && g.players[i].team == t
    requires var moved := Player(g.players[i].name, Other(t));
      && r.players == g.players[i := moved]
      && Members(r, t) == Without(Members(g, t), moved.name)
      && Members(r, Other(t)) == Members(g, Other(t)) + [moved]
    ensures Placed(r)
  {
    var name := g.players[i].name;
    WithoutMembers(Members(g, t), name);
    forall q | q in r.players
      ensures q in Members(r, q.team)
    {
      var k :| 0 <= k < |r.players| && r.players[k] == q;
      if k != i {
        assert q == g.players[k] && q.name != name;
        assert q in Members(g, q.team);
        if q.team != t { assert q.team == Other(t); }
      }
    }
  }

  lemma SwitchTeamConsistent(g: Game, name: string, i: nat)
    requires TeamsConsistent(g) && i < |g.players| && i == FindName(g.players, name)
    ensures TeamsConsistent(SwitchTeam(g, name))
  {
    var r := SwitchTeam(g, name);
    var t := g.players[i].team;
    SwitchTeamShape(g, name, i);
    ReplaceSameName(g.players, i, Player(name, Other(t)));
    ListOkOf(g, t);
    ListOkOf(g, Other(t));
    LeftListOk(g, r, i, t);
    JoinedListOk(g, r, i, t);
    MovedPlayersPlaced(g, r, i, t);
    if t == A {
      assert ListOk(r, A) && ListOk(r, B);
    } else {
      assert ListOk(r, A) && ListOk(r, B);
    }
  }

  /** `switch-team` keeps every player in exactly the list its `team` field names. */
  lemma SwitchTeamPreservesValid(g: Game, name: string)
    requires Valid(g)
    ensures Valid(SwitchTeam(g, name))
  {
    var i := FindName(g.players, name);
    if i < |g.players| {
      SwitchTeamConsistent(g, name, i);
      SwitchTeamShape(g, name, i);
      ReplaceSameName(g.players, i, Player(name, Other(g.players[i].team)));
    } else {
      assert SwitchTeam(g, name) == g;
    }
  }

  /** The `set-time` handler: only the round length changes. */
  function SetTime(g: Game, minutes: int): (r: Game)
    ensures r.time == minutes
    ensures r.(time := g.time) == g
  {
    g.(time := minutes)
  }

  /**
   * The `draw` handler: the stroke is appended to the room's strokes,
   * whoever sent it and whatever its length.
   */
  function Draw(g: Game, line: Line): (r: Game)
    ensures |r.drawingData| == |g.drawingData| + 1
    ensures r.drawingData[..|g.drawingData|] == g.drawingData
    ensures r.drawingData[|g.drawingData|] == line
    ensures r.(drawingData := g.drawingData) == g
  {
    g.(drawingData := g.drawingData + [line])
  }

  /**
   * The `disconnect` handler: every entry with that name leaves `players`
   * and both team lists, its score is deleted, and nothing else changes.
   */
  function Disconnect(g: Game, name: string): (r: Game)
    ensures forall p :: p in r.players <==> p in g.players && p.name != name
    ensures forall p :: p in r.teamA <==> p in g.teamA && p.name != name
    ensures forall p :: p in r.teamB <==> p in g.teamB && p.name != name
    ensures r.scores.Keys == g.scores.Keys - {name}
    ensures forall n :: n in r.scores ==> r.scores[n] == g.scores[n]
    ensures r.(players := g.players, teamA := g.teamA, teamB := g.teamB, scores := g.scores) == g
  {
    WithoutMembers(g.players, name);
    WithoutMembers(g.teamA, name);
    WithoutMembers(g.teamB, name);
    g.(players := Without(g.players, name),
       teamA := Without(g.teamA, name),
       teamB := Without(g.teamB, name),
       scores := g.scores - {name})
  }

  /** Disconnect keeps the remaining players in their relative order, in every list. */
  lemma DisconnectKeepsOrder(g: Game, name: string, xs: seq<Player>, ys: seq<Player>)
    requires g.players == xs + ys || g.teamA == xs + ys || g.teamB == xs + ys
    ensures var r := Disconnect(g, name);
      && (g.players == xs + ys ==> r.players == Without(xs, name) + Without(ys, name))
      && (g.teamA == xs + ys ==> r.teamA == Without(xs, name) + Without(ys, name))
      && (g.teamB == xs + ys ==> r.teamB == Without(xs, name) + Without(ys, name))
  {
    WithoutAppend(xs, ys, name);
  }

  /** Team list t after a disconnect is the filtered list. */
  lemma DisconnectMembers(g: Game, name: string, t: Team)
    ensures Members(Disconnect(g, name), t) == Without(Members(g, t), name)
  {
    if t == A {} else {}
  }

  lemma DisconnectListOk(g: Game, name: string, t: Team)
    requires ListOk(g, t)
    ensures ListOk(Disconnect(g, name), t)
  {
    var r := Disconnect(g, name);
    DisconnectMembers(g, name, t);
    WithoutMembers(Members(g, t), name);
    WithoutUnique(Members(g, t), name);
  }

  lemma DisconnectPlaced(g: Game, name: string)
    requires Placed(g)
    ensures Placed(Disconnect(g, name))
  {
    var r := Disconnect(g, name);
    forall p | p in r.players ensures p in Members(r, p.team) {
      DisconnectMembers(g, name, p.team);
      WithoutMembers(Members(g, p.team), name);
    }
  }

  /** Disconnect keeps every remaining player in exactly its own team list. */
  lemma DisconnectPreservesTeams(g: Game, name: string)
    requires TeamsConsistent(g)
    ensures TeamsConsistent(Disconnect(g, name))
  {
    WithoutUnique(g.players, name);
    DisconnectListOk(g, name, A);
    DisconnectListOk(g, name, B);
    DisconnectPlaced(g, name);
  }

  /** Disconnect keeps the room consistent. */
  lemma DisconnectPreservesValid(g: Game, name: string)
    requires Valid(g)
    ensures Valid(Disconnect(g, name))
  {
    var r := Disconnect(g, name);
    DisconnectPreservesTeams(g, name);
    assert Names(r.players) == Names(g.players) - {name} by {
      forall n | n in Names(g.players) - {name} ensures n in Names(r.players) {
        var p :| p in g.players && p.name == n;
        assert p in r.players;
      }
    }
  }

  /** Disconnecting a name nobody uses leaves a consistent room as it was. */
  lemma DisconnectAbsentIsNoOp(g: Game, name: string)
    requires Valid(g) && name !in Names(g.players)
    ensures Disconnect(g, name) == g
  {
    WithoutAbsent(g.players, name);
    AbsentFromTeam(g, name, A);
    AbsentFromTeam(g, name, B);
    WithoutAbsent(g.teamA, name);
    WithoutAbsent(g.teamB, name);
    assert g.scores - {name} == g.scores;
  }

  lemma WithoutAppendedAbsent(ps: seq<Player>, p: Player)
    requires p.name !in Names(ps)
    ensures Without(ps + [p], p.name) == ps
  {
    WithoutAppend(ps, [p], p.name);
    WithoutAbsent(ps, p.name);
  }

  lemma JoinThenDisconnectLists(g: Game, name: string)
    requires TeamsConsistent(g) && name !in Names(g.players)
    ensures var r := Disconnect(Join(g, name).value, name);
      r.players == g.players && r.teamA == g.teamA && r.teamB == g.teamB
  {
    var p := Player(name, A);
    AbsentFromTeam(g, name, A);
    AbsentFromTeam(g, name, B);
    WithoutAppendedAbsent(g.players, p);
    WithoutAppendedAbsent(g.teamA, p);
    WithoutAbsent(g.teamB, name);
  }

  /** Disconnect undoes a successful join: the room returns to its state before the join. */
  lemma JoinThenDisconnect(g: Game, name: string)
    requires Valid(g) && Join(g, name).Ok?
    ensures Disconnect(Join(g, name).value, name) == g
  {
    var p := Player(name, A);
    var j := Join(g, name).value;
    assert j == g.(players := g.players + [p], teamA := g.teamA + [p], scores := g.scores[name := 0]);
    var r := Disconnect(j, name);
    assert r == g.(players := Without(g.players + [p], name), teamA := Without(g.teamA + [p], name),
                   teamB := Without(g.teamB, name), scores := g.scores[name := 0] - {name});
    JoinThenDisconnectLists(g, name);
    assert name !in g.scores.Keys;
    AddThenRemove(g.scores, name, 0);
  }

  lemma AddThenRemove(m: map<string, int>, k: string, v: int)
    requires k !in m
    ensures m[k := v] - {k} == m
  {
  }
}

=== FILE: round.dfy ===
/**
 * Rounds: drawing a word from the room's pool, starting a round, starting
 * the game, and judging guesses. The word provider is a parameter: `reply`
 * is the text it would return if the pool needs refilling.
 */
module Round {
  import opened Wrappers
  import opened Text
  import opened Words
  import opened Room

  /** Below this many words the pool is refilled before a word is drawn. */
  const RefillBelow: nat := 2

  /** Points for a correct guess. */
  const GuessPoints: int := 10

  /** The pool a word is drawn from: a fresh batch parsed from `reply` when fewer than two words are left. */
  function Source(pool: seq<string>, reply: string): seq<string> {
    if |pool| < RefillBelow then ParseWords(reply) else pool
  }

  /** `pop()`: the last entry and the entries before it; nothing from an empty list. */
  function Pop(s: seq<string>): (r: (Option<string>, seq<string>))
    ensures |s| == 0 ==> r.0 == None && r.1 == []
    ensures |s| > 0 ==> r.0.Some? && r.1 + [r.0.value] == s
  {
    if |s| == 0 then (None, [])
    else
      var rest := s[..|s| - 1];
      assert rest + [s[|s| - 1]] == s;
      (Some(s[|s| - 1]), rest)
  }

  /**
   * `getRandomWord`: the pool is replaced by a fresh batch parsed from
   * `reply` when it holds fewer than two words; then its last word is popped.
   * An empty pool yields no word (`pop()` returns `undefined`).
   */
  function DrawWord(pool: seq<string>, reply: string): (r: (Option<string>, seq<string>))
    ensures |pool| < RefillBelow ==> Source(pool, reply) == ParseWords(reply)
    ensures |pool| >= RefillBelow ==> Source(pool, reply) == pool
    ensures |Source(pool, reply)| == 0 ==> r.0 == None && r.1 == []
    ensures |Source(pool, reply)| > 0 ==> r.0.Some? && r.1 + [r.0.value] == Source(pool, reply)
  {
    Pop(Source(pool, reply))
  }

  /** A pool that needs no refill loses exactly its last word, which is the word drawn. */
  lemma DrawWordNoRefill(pool: seq<string>, reply: string)
    requires |pool| >= RefillBelow
    ensures var (w, rest) := DrawWord(pool, reply);
      && w == Some(pool[|pool| - 1])
      && |rest| == |pool| - 1
      && rest == pool[..|pool| - 1]
  {
    var (w, rest) := DrawWord(pool, reply);
    assert rest + [w.value] == pool;
    assert rest == (rest + [w.value])[..|rest|];
  }

  /** Every word the pool yields is usable: non-empty and trimmed. */
  lemma DrawWordYieldsWord(pool: seq<string>, reply: string)
    requires AllWords(pool)
    ensures var (w, rest) := DrawWord(pool, reply);
      && (w.Some? ==> IsWord(w.value))
      && AllWords(rest)
  {
    var (w, rest) := DrawWord(pool, reply);
    var source := Source(pool, reply);
    if |source| > 0 {
      assert source == rest + [w.value];
      assert w.value in source;
      forall v | v in rest ensures IsWord(v) {
        assert v in source;
      }
    }
  }

  /**
   * `startRound`: a new word (or "" when the pool is exhausted, where the
   * code stores `undefined`), an empty canvas and an unguessed round.
   */
  function StartRound(g: Game, reply: string): (r: Game)
    ensures r.drawingData == [] && !r.guessed
    ensures var (w, rest) := DrawWord(g.words, reply);
      r.currentWord == w.GetOr("") && r.words == rest
    ensures r.(currentWord := g.currentWord, words := g.words, drawingData := g.drawingData, guessed := g.guessed) == g
  {
    var (w, rest) := DrawWord(g.words, reply);
    g.(currentWord := w.GetOr(""), words := rest, drawingData := [], guessed := false)
  }

  /** The `start-game` handler: the room is marked started and a round begins. */
  function StartGame(g: Game, reply: string): (r: Game)
    ensures r.started
    ensures r == StartRound(g, reply).(started := true)
  {
    StartRound(g.(started := true), reply)
  }

  /** `guess.trim().toLowerCase() === currentWord.toLowerCase()`. */
  predicate Matches(guess: string, word: string)
    ensures Matches(guess, word) ==> |Trim(guess)| == |word|
  {
    Lower(Trim(guess)) == Lower(word)
  }

  /** How the server answered a guess. */
  datatype Verdict =
    | Ignored    // no word yet, or the round is already guessed: nothing is sent
    | Correct    // 'Correct!' to the room, then a new round
    | Incorrect  // 'Incorrect!' to the guesser only

  /** A score that is missing counts as 0 (`scores[name] || 0`). */
  function ScoreOf(scores: map<string, int>, name: string): (r: int)
    ensures name in scores ==> r == scores[name]
    ensures name !in scores ==> r == 0
  {
    if name in scores then scores[name] else 0
  }

  /** The first half of a correct guess: the points, and the round marked guessed. */
  function Award(g: Game, name: string): (r: Game)
    ensures r.guessed
    ensures name in r.scores && r.scores[name] == ScoreOf(g.scores, name) + GuessPoints
    ensures forall n :: n != name ==> (n in r.scores <==> n in g.scores)
    ensures forall n :: n != name && n in g.scores ==> r.scores[n] == g.scores[n]
    ensures r.(scores := g.scores, guessed := g.guessed) == g
  {
    g.(scores := g.scores[name := ScoreOf(g.scores, name) + GuessPoints], guessed := true)
  }

  /**
   * The `guess` handler. The guesser's name comes from the message itself.
   * A correct guess awards the points and starts the next round; anything
   * else leaves the room unchanged.
   */
  function Guess(g: Game, name: string, guess: string, reply: string): (r: (Game, Verdict))
    ensures r.1 == Ignored <==> g.currentWord == "" || g.guessed
    ensures r.1 != Ignored ==> (r.1 == Correct <==> Matches(guess, g.currentWord))
    ensures r.1 != Correct ==> r.0 == g
    ensures r.1 == Correct ==> r.0 == StartRound(Award(g, name), reply)
  {
    if g.currentWord == "" || g.guessed then (g, Ignored)
    else if Matches(guess, g.currentWord) then (StartRound(Award(g, name), reply), Correct)
    else (g, Incorrect)
  }

  /**
   * A correct guess adds exactly 10 to the guesser's score, touches no other
   * score and no roster, and leaves a fresh, unguessed round with an empty canvas.
   */
  lemma CorrectGuessEffect(g: Game, name: string, guess: string, reply: string)
    requires Guess(g, name, guess, reply).1 == Correct
    ensures var r := Guess(g, name, guess, reply).0;
      && r.scores == g.scores[name := ScoreOf(g.scores, name) + GuessPoints]
      && r.scores[name] - ScoreOf(g.scores, name) == 10
      && r.players == g.players && r.teamA == g.teamA && r.teamB == g.teamB
      && r.drawingData == [] && !r.guessed
  {
  }

  /**
   * While the next word is being fetched after a correct guess the round is
   * marked guessed, so any further guess, right or wrong, is ignored: the
   * points are awarded at most once per round.
   */
  lemma GuessedRoundIgnoresGuesses(g: Game, name: string, other: string, guess: string, reply: string)
    ensures Guess(Award(g, name), other, guess, reply) == (Award(g, name), Ignored)
  {
  }

  /** Trimming and lowering the guess may be done in either order. */
  lemma MatchesEitherOrder(guess: string, word: string)
    ensures Matches(guess, word) <==> Trim(Lower(guess)) == Lower(word)
  {
    LowerTrimCommute(guess);
  }

  /** Matching ignores letter case on both sides. */
  lemma MatchesIgnoresCase(guess: string, guess': string, word: string, word': string)
    requires SameUpToCase(guess, guess') && SameUpToCase(word, word')
    ensures Matches(guess, word) <==> Matches(guess', word')
  {
    SameUpToCaseLower(guess, guess');
    SameUpToCaseLower(word, word');
    LowerTrimCommute(guess);
    LowerTrimCommute(guess');
  }

  /** A trimmed guess matches exactly the words it spells, letter case aside. */
  lemma MatchesSameUpToCase(guess: string, word: string)
    requires IsTrimmed(guess)
    ensures Matches(guess, word) <==> SameUpToCase(guess, word)
  {
    TrimmedIsFixed(guess);
    SameUpToCaseLower(guess, word);
  }

  /** "cat" is a correct guess for the word "Cat". */
  lemma CatMatchesCat()
    ensures Matches("cat", "Cat")
  {
    assert IsTrimmed("cat");
    assert SameUpToCase("cat", "Cat");
    MatchesSameUpToCase("cat", "Cat");
  }

  /** " CAT " is a correct guess for the word "cat". */
  lemma PaddedCapitalsMatch()
    ensures Matches(" CAT ", "cat")
  {
    assert " CAT " == " " + "CAT" + " ";
    assert AllSpace(" ") && IsTrimmed("CAT");
    assert SameUpToCase("CAT", "cat");
    MatchesIgnoresPadding(" ", "CAT", " ", "cat");
  }

  /** Matching ignores whitespace around the guess. */
  lemma MatchesIgnoresPadding(pre: string, guess: string, post: string, word: string)
    requires AllSpace(pre) && AllSpace(post) && IsTrimmed(guess)
    ensures Matches(pre + guess + post, word) <==> SameUpToCase(guess, word)
  {
    SameUpToCaseLower(guess, word);
    TrimIgnoresPadding(pre, guess, post);
  }

  /** The word itself, in any case and with any surrounding whitespace, is a correct guess. */
  lemma WordItselfMatches(pre: string, word: string, post: string, cased: string)
    requires AllSpace(pre) && AllSpace(post) && IsWord(word)
    requires SameUpToCase(cased, word)
    ensures Matches(pre + cased + post, word)
  {
    SameUpToCaseLower(cased, word);
    LowerKeepsTrimmed(word);
    LowerKeepsTrimmed(cased);
    TrimIgnoresPadding(pre, cased, post);
  }

  /** A round's word always comes from the pool, so it is usable or "". */
  lemma StartRoundWord(g: Game, reply: string)
    requires AllWords(g.words)
    ensures var r := StartRound(g, reply);
      (r.currentWord == "" || IsWord(r.currentWord)) && AllWords(r.words)
  {
    DrawWordYieldsWord(g.words, reply);
  }

  /** A transition that leaves the roster and the scores alone keeps the room consistent. */
  lemma SameRosterValid(g: Game, r: Game)
    requires Valid(g)
    requires r.players == g.players && r.teamA == g.teamA && r.teamB == g.teamB
    requires r.scores.Keys == g.scores.Keys
    ensures Valid(r)
  {
    assert Members(r, A) == Members(g, A) && Members(r, B) == Members(g, B);
  }

  /** Starting a round or the game keeps the room consistent. */
  lemma StartRoundPreservesValid(g: Game, reply: string)
    requires Valid(g)
    ensures Valid(StartRound(g, reply)) && Valid(StartGame(g, reply))
  {
    SameRosterValid(g, StartRound(g, reply));
    SameRosterValid(g, StartGame(g, reply));
  }

  /** After a correct guess by a player the roster is the same and the scores have the same keys. */
  lemma CorrectGuessRoster(g: Game, name: string, reply: string)
    requires name in g.scores
    ensures var r := StartRound(Award(g, name), reply);
      && r.players == g.players && r.teamA == g.teamA && r.teamB == g.teamB
      && r.scores.Keys == g.scores.Keys
  {
  }

  /** A guess made under a player's name keeps the room consistent. */
  lemma GuessPreservesValid(g: Game, name: string, guess: string, reply: string)
    requires Valid(g) && name in Names(g.players)
    ensures Valid(Guess(g, name, guess, reply).0)
  {
    var r := Guess(g, name, guess, reply);
    if r.1 == Correct {
      CorrectGuessRoster(g, name, reply);
      SameRosterValid(g, r.0);
    }
  }

  /**
   * The guesser's name is taken from the message, not checked against the
   * roster: a correct guess under a name that is not a player creates a
   * score for it, so the scores no longer track the players.
   */
  lemma GuessByStrangerAddsScore(g: Game, name: string, guess: string, reply: string)
    requires Valid(g) && name !in Names(g.players)
    requires Guess(g, name, guess, reply).1 == Correct
    ensures !ScoresTrackPlayers(Guess(g, name, guess, reply).0)
  {
    var r := Guess(g, name, guess, reply).0;
    assert name in r.scores;
    assert r.players == g.players;
  }
}

=== FILE: strokes.dfy ===
/** Strokes: a stroke is an ordered list of canvas points. Points are never computed on. */
module Strokes {
  datatype Point = Point(x: real, y: real)

  type Line = seq<Point>
}

=== FILE: text.dfy ===
/**
 * String helpers of the JavaScript runtime that the game relies on:
 * `String.prototype.trim`, `String.prototype.toLowerCase` and
 * `String.prototype.indexOf` for one character.
 */
module Text {

  /** The code points `trim` strips, apart from the range U+2000..U+200A: WhiteSpace and LineTerminator of ECMA-262 (sections 12.2 and 12.3). */
  const Spaces: set<char> := {
    '\t', '\n', '\U{B}', '\U{C}', '\r', ' ', '\U{A0}', '\U{1680}',
    '\U{2028}', '\U{2029}', '\U{202F}', '\U{205F}', '\U{3000}', '\U{FEFF}'}

  /** Position of the first `c` in `s`, or `|s|` when there is none. */
  function IndexOf(s: string, c: char): (i: nat)
    ensures i <= |s|
    ensures i < |s| ==> s[i] == c
    ensures forall k :: 0 <= k < i ==> s[k] != c
  {
    if |s| == 0 then 0
    else if s[0] == c then 0
    else 1 + IndexOf(s[1..], c)
  }

  predicate IsSpace(c: char) {
    c in Spaces || '\U{2000}' <= c <= '\U{200A}'
  }

  predicate AllSpace(s: string) {
    forall i :: 0 <= i < |s| ==> IsSpace(s[i])
  }

  /** Neither end of `s` is a space. */
  predicate IsTrimmed(s: string) {
    |s| == 0 || (!IsSpace(s[0]) && !IsSpace(s[|s| - 1]))
  }

  /** Drops the leading spaces: the result is the longest suffix that does not start with one. */
  function TrimStart(s: string): (r: string)
    ensures |r| <= |s| && r == s[|s| - |r|..]
    ensures AllSpace(s[..|s| - |r|])
    ensures |r| > 0 ==> !IsSpace(r[0])
  {
    if |s| > 0 && IsSpace(s[0]) then TrimStart(s[1..]) else s
  }

  /** Drops the trailing spaces: the result is the longest prefix that does not end with one. */
  function TrimEnd(s: string): (r: string)
    ensures |r| <= |s| && r == s[..|r|]
    ensures AllSpace(s[|r|..])
    ensures |r| > 0 ==> !IsSpace(r[|r| - 1])
  {
    if |s| > 0 && IsSpace(s[|s| - 1]) then TrimEnd(s[..|s| - 1]) else s
  }

  /** `s.trim()`. */
  function Trim(s: string): (r: string)
    ensures IsTrimmed(r)
    ensures |r| <= |s|
  {
    var t := TrimStart(s);
    var r := TrimEnd(t);
    assert |r| > 0 ==> r[0] == t[0];
    r
  }

  /** `toLowerCase` on one character, for the ASCII capital letters. */
  function LowerChar(c: char): char {
    if 'A' <= c <= 'Z' then (c as int + 32) as char else c
  }

  /** `s.toLowerCase()` restricted to ASCII case mapping. */
  function Lower(s: string): (r: string)
    ensures |r| == |s|
    ensures forall i :: 0 <= i < |r| ==> !('A' <= r[i] <= 'Z')
    ensures forall i :: 0 <= i < |s| && !('A' <= s[i] <= 'Z') ==> r[i] == s[i]
    ensures forall i :: 0 <= i < |s| && 'A' <= s[i] <= 'Z' ==> r[i] == (s[i] as int + 32) as char
  {
    seq(|s|, i requires 0 <= i < |s| => LowerChar(s[i]))
  }

  /** `a` and `b` are one character, or the two cases of one ASCII letter. */
  predicate SameCharUpToCase(a: char, b: char) {
    || a == b
    || ('A' <= a <= 'Z' && b as int == a as int + 32)
    || ('A' <= b <= 'Z' && a as int == b as int + 32)
  }

  /** `s` and `t` spell the same text, letter case aside. */
  predicate SameUpToCase(s: string, t: string) {
    |s| == |t| && forall i :: 0 <= i < |s| ==> SameCharUpToCase(s[i], t[i])
  }

  lemma SameCharLower(a: char, b: char)
    ensures LowerChar(a) == LowerChar(b) <==> SameCharUpToCase(a, b)
  {
  }

  /** Lowering identifies exactly the strings that differ only in letter case. */
  lemma SameUpToCaseLower(s: string, t: string)
    ensures SameUpToCase(s, t) <==> Lower(s) == Lower(t)
  {
    if SameUpToCase(s, t) {
      forall i | 0 <= i < |s| ensures Lower(s)[i] == Lower(t)[i] {
        SameCharLower(s[i], t[i]);
      }
    }
    if Lower(s) == Lower(t) {
      forall i | 0 <= i < |s| ensures SameCharUpToCase(s[i], t[i]) {
        assert Lower(s)[i] == Lower(t)[i];
        SameCharLower(s[i], t[i]);
      }
    }
  }

  /** Lowering twice is lowering once. */
  lemma LowerIdempotent(s: string)
    ensures Lower(Lower(s)) == Lower(s)
  {
  }

  lemma LowerCharKeepsSpace(c: char)
    ensures IsSpace(LowerChar(c)) == IsSpace(c)
  {
  }

  /** A trimmed string is its own trim. */
  lemma {:induction false} TrimmedIsFixed(s: string)
    requires IsTrimmed(s)
    ensures Trim(s) == s
  {
    if |s| > 0 {
      assert TrimStart(s) == s;
      assert TrimEnd(s) == s;
    }
  }

  lemma {:induction false} TrimStartPadded(ws: string, w: string)
    requires AllSpace(ws)
    requires |w| == 0 || !IsSpace(w[0])
    ensures TrimStart(ws + w) == TrimStart(w)
    decreases |ws|
  {
    if |ws| > 0 {
      assert (ws + w)[1..] == ws[1..] + w;
      TrimStartPadded(ws[1..], w);
    } else {
      assert ws + w == w;
    }
  }

  lemma {:induction false} TrimEndPadded(w: string, ws: string)
    requires AllSpace(ws)
    requires |w| == 0 || !IsSpace(w[|w| - 1])
    ensures TrimEnd(w + ws) == TrimEnd(w)
    decreases |ws|
  {
    if |ws| > 0 {
      assert (w + ws)[..|w + ws| - 1] == w + ws[..|ws| - 1];
      TrimEndPadded(w, ws[..|ws| - 1]);
    } else {
      assert w + ws == w;
    }
  }

  lemma AllSpaceTrimStart(ws: string)
    requires AllSpace(ws)
    ensures TrimStart(ws) == ""
  {
  }

  /**
   * Surrounding a trimmed string with spaces on either side does not change
   * its trim: `trim` is insensitive to leading and trailing whitespace.
   */
  lemma TrimIgnoresPadding(pre: string, w: string, post: string)
    requires AllSpace(pre) && AllSpace(post)
    requires IsTrimmed(w)
    ensures Trim(pre + w + post) == w
  {
    if |w| == 0 {
      assert pre + w + post == pre + post;
      assert AllSpace(pre + post);
      AllSpaceTrimStart(pre + post);
    } else {
      assert pre + w + post == pre + (w + post);
      TrimStartPadded(pre, w + post);
      assert TrimStart(w + post) == w + post;
      TrimEndPadded(w, post);
      TrimmedIsFixed(w);
    }
  }

  /** Lowering a string keeps it trimmed, so `trim` and `toLowerCase` commute. */
  lemma {:induction false} LowerTrimStart(s: string)
    ensures Lower(TrimStart(s)) == TrimStart(Lower(s))
    decreases |s|
  {
    if |s| > 0 {
      LowerCharKeepsSpace(s[0]);
      assert Lower(s)[0] == LowerChar(s[0]);
      if IsSpace(s[0]) {
        assert Lower(s)[1..] == Lower(s[1..]);
        LowerTrimStart(s[1..]);
      }
    }
  }

  lemma {:induction false} LowerTrimEnd(s: string)
    ensures Lower(TrimEnd(s)) == TrimEnd(Lower(s))
    decreases |s|
  {
    if |s| > 0 {
      LowerCharKeepsSpace(s[|s| - 1]);
      if IsSpace(s[|s| - 1]) {
        assert Lower(s)[..|s| - 1] == Lower(s[..|s| - 1]);
        LowerTrimEnd(s[..|s| - 1]);
      }
    }
  }

  lemma LowerTrimCommute(s: string)
    ensures Lower(Trim(s)) == Trim(Lower(s))
  {
    LowerTrimStart(s);
    LowerTrimEnd(TrimStart(s));
  }

  /** Lowering neither adds nor removes a space at either end. */
  lemma LowerKeepsTrimmed(s: string)
    ensures IsTrimmed(Lower(s)) == IsTrimmed(s)
  {
    if |s| > 0 {
      LowerCharKeepsSpace(s[0]);
      LowerCharKeepsSpace(s[|s| - 1]);
    }
  }
}

=== FILE: timer.dfy ===
/**
 * The round countdown. The server starts from `time * 60`, and once a
 * second decrements the count and sends it, stopping after the first value
 * that is at most 0. Real time is abstracted away: the countdown is the
 * sequence of values it sends.
 */
module Timer {

  /** The values sent, in order, by a countdown seeded with `start`. */
  function Ticks(start: int): (r: seq<int>)
    ensures |r| >= 1 && r[0] == start - 1
    ensures r[|r| - 1] <= 0
    ensures forall k :: 0 <= k < |r| - 1 ==> r[k] > 0
    ensures forall k :: 0 <= k < |r| - 1 ==> r[k + 1] == r[k] - 1
    ensures start >= 1 ==> |r| == start && r[|r| - 1] == 0
    ensures start < 1 ==> r == [start - 1]
    decreases if start > 0 then start else 0
  {
    var t := start - 1;
    if t <= 0 then [t] else [t] + Ticks(t)
  }

  /** A countdown of `start >= 1` seconds sends exactly `start - 1, start - 2, ..., 0`. */
  lemma {:induction false} TicksCountDown(start: int)
    requires start >= 1
    ensures forall k :: 0 <= k < |Ticks(start)| ==> Ticks(start)[k] == start - 1 - k
    decreases start
  {
    if start > 1 {
      TicksCountDown(start - 1);
      var r := Ticks(start);
      assert r == [start - 1] + Ticks(start - 1);
      forall k | 0 <= k < |r| ensures r[k] == start - 1 - k {
        if k > 0 {
          assert r[k] == Ticks(start - 1)[k - 1];
        }
      }
    }
  }
}

=== FILE: words.dfy ===
/**
 * Parsing the word provider's reply into a word list: the reply is split
 * on line breaks (`/\r?\n/`), every piece is trimmed and blank pieces are
 * dropped.
 */
module Words {
  import opened Text

  /** Removes one `\r` at the end of a piece that a `\n` followed: the optional half of `\r?\n`. */
  function DropCr(p: string): string {
    if |p| > 0 && p[|p| - 1] == '\r' then p[..|p| - 1] else p
  }

  /** `text.split(/\r?\n/)`: always at least one piece, and no piece holds a `\n`. */
  function SplitLines(text: string): (r: seq<string>)
    ensures |r| >= 1
    ensures forall k :: 0 <= k < |r| ==> '\n' !in r[k]
    decreases |text|
  {
    var i := IndexOf(text, '\n');
    if i == |text| then [text]
    else [DropCr(text[..i])] + SplitLines(text[i + 1..])
  }

  /** A word the game can use: not blank and without surrounding whitespace. */
  predicate IsWord(w: string) {
    |w| > 0 && IsTrimmed(w)
  }

  /** Every entry is a usable word. */
  predicate AllWords(ws: seq<string>) {
    forall w :: w in ws ==> IsWord(w)
  }

  /** `.map(w => w.trim()).filter(Boolean)` over the pieces. */
  function CleanWords(pieces: seq<string>): (r: seq<string>)
    ensures |r| <= |pieces|
    ensures forall w :: w in r ==> IsWord(w)
  {
    if |pieces| == 0 then []
    else
      var w := Trim(pieces[0]);
      var rest := CleanWords(pieces[1..]);
      if w == "" then rest
      else
        [w] + rest
  }

  /** A single piece yields its trim, or nothing when it is blank. */
  lemma CleanWordsOne(p: string)
    ensures CleanWords([p]) == if Trim(p) == "" then [] else [Trim(p)]
  {
    assert [p][1..] == [];
  }

  /** Cleaning works piece by piece: it distributes over concatenation, so the words keep the order of their lines. */
  lemma {:induction false} CleanWordsAppend(a: seq<string>, b: seq<string>)
    ensures CleanWords(a + b) == CleanWords(a) + CleanWords(b)
    decreases |a|
  {
    if |a| == 0 {
      assert a + b == b;
    } else {
      assert (a + b)[0] == a[0];
      assert (a + b)[1..] == a[1..] + b;
      CleanWordsAppend(a[1..], b);
    }
  }

  /** Every piece that is not blank is kept, as its trim. */
  lemma {:induction false} CleanWordsKeeps(pieces: seq<string>, k: nat)
    requires k < |pieces| && Trim(pieces[k]) != ""
    ensures Trim(pieces[k]) in CleanWords(pieces)
    decreases |pieces|
  {
    var w := Trim(pieces[0]);
    var rest := CleanWords(pieces[1..]);
    assert CleanWords(pieces) == if w == "" then rest else [w] + rest;
    if k > 0 {
      assert pieces[1..][k - 1] == pieces[k];
      CleanWordsKeeps(pieces[1..], k - 1);
      assert Trim(pieces[k]) in rest;
    }
  }

  /** The word list of one provider reply. */
  function ParseWords(text: string): (r: seq<string>)
    ensures AllWords(r)
  {
    CleanWords(SplitLines(text))
  }

  /** One word per line, the reply format the provider is asked for. */
  function JoinLines(ws: seq<string>): string {
    if |ws| == 0 then ""
    else if |ws| == 1 then ws[0]
    else ws[0] + "\n" + JoinLines(ws[1..])
  }

  lemma SplitFirstLine(w: string, rest: string)
    requires '\n' !in w
    ensures SplitLines(w + "\n" + rest) == [DropCr(w)] + SplitLines(rest)
  {
    var t := w + "\n" + rest;
    assert t[|w|] == '\n';
    assert forall k :: 0 <= k < |w| ==> t[k] == w[k];
    assert IndexOf(t, '\n') == |w|;
    assert t[..|w|] == w;
    assert t[|w| + 1..] == rest;
  }

  lemma SplitSingleLine(w: string)
    requires '\n' !in w
    ensures SplitLines(w) == [w]
  {
    assert IndexOf(w, '\n') == |w|;
  }

  /**
   * Round trip: a list of usable words written one per line parses back to
   * exactly the same list, in the same order.
   */
  lemma {:induction false} ParseJoinLines(ws: seq<string>)
    requires forall w :: w in ws ==> IsWord(w) && '\n' !in w
    ensures ParseWords(JoinLines(ws)) == ws
    decreases |ws|
  {
    if |ws| == 0 {
      assert SplitLines("") == [""];
      assert Trim("") == "";
    } else {
      var w := ws[0];
      assert w in ws;
      assert DropCr(w) == w by {
        assert IsSpace('\r');
      }
      TrimmedIsFixed(w);
      if |ws| == 1 {
        SplitSingleLine(w);
      } else {
        SplitFirstLine(w, JoinLines(ws[1..]));
        var pieces := SplitLines(JoinLines(ws));
        assert pieces[0] == w && pieces[1..] == SplitLines(JoinLines(ws[1..]));
        assert forall v :: v in ws[1..] ==> v in ws;
        ParseJoinLines(ws[1..]);
      }
    }
  }

  /** Every parsed word is the trim of one piece of the reply. */
  lemma {:induction false} CleanWordsFromPieces(pieces: seq<string>, w: string)
    requires w in CleanWords(pieces)
    ensures exists k :: 0 <= k < |pieces| && w == Trim(pieces[k])
  {
    if |pieces| > 0 {
      if w != Trim(pieces[0]) {
        CleanWordsFromPieces(pieces[1..], w);
        var k :| 0 <= k < |pieces[1..]| && w == Trim(pieces[1..][k]);
        assert w == Trim(pieces[k + 1]);
      }
    }
  }
}

=== FILE: wrappers.dfy ===
/** Failure-carrying values shared by the server and client models. */
module Wrappers {

  /** A value that may be absent (JavaScript's `undefined`). */
  datatype Option<+T> = None | Some(value: T) {
    function GetOr(default: T): T {
      match this
      case Some(v) => v
      case None => default
    }
  }

  /** An outcome that is either a value or an error. */
  datatype Result<+T, +E> = Ok(value: T) | Err(error: E)
}
